=== FILE: README.md ===
# Period comparators, tracker session state and canvas URLs, in Dafny

This project models three pieces of the session-analytics product.

- **The period comparators** of `ee/api/chalicelib/core/sessions_insights.py`.
  - The time-step resolver `__handle_timestep`.
  - The bucketed aggregate query. Its synthetic `range(start, end, step)` bucket sequence is left-joined to the events, grouped by bucket and dimension, and ordered by bucket descending.
  - The dataframe logic of `query_requests_by_period`, `query_most_errors_by_period` and `query_cpu_memory_by_period`. It takes the first two distinct buckets as the current and the previous period, splits the current period's names into new and common ones, and computes the per-name mean deltas, the error shares and increases, the CPU/memory deltas and the rankings.
- **The tracker's `Session` record** of `tracker/tracker/src/main/app/session.ts`. Each operation is a pure function from a state and an input to a new state and the list of callback deliveries it makes.
- **The canvas URL list** of `api/chalicelib/core/canvas.py`. Its loop appends to the list it iterates, bounded by the length taken before the loop.

## Layout

| file | module | what it holds |
|---|---|---|
| `wrappers.dfy` | `Wrappers` | `Option` and `Result` |
| `seqs.dfy` | `Seqs` | mask selection (`Filter`), `Series.unique()` (`Unique`), projection (`Map`) |
| `stats.dfy` | `Stats` | NaN-skipping mean, NaN-propagating difference, share and relative change |
| `ranking.dfy` | `Ranking` | `sort_values` with NaN last, as sortedness plus permutation |
| `timestep.dfy` | `TimeStep` | the resolver |
| `buckets.dfy` | `Buckets` | ClickHouse `range` |
| `bucketed_query.dfy` | `BucketedQuery` | the left join, the grouping and the descending order |
| `periods.dfy` | `Periods` | period selection, slices, the new/common split |
| `requests.dfy`, `errors.dfy`, `resources.dfy` | `RequestInsights`, `ErrorInsights`, `ResourceInsights` | the three comparators, end to end |
| `session.dfy` | `SessionState` | the tracker session |
| `canvas.dfy` | `CanvasUrls` | the presigned-URL list |

## Modelling decisions

- **The resolver follows the code.** Both assert messages of `__handle_timestep` (lines 7 and 16) announce a fourth accepted form, a count of minutes with width `minutes × 60`. The code never accepts it. The first assert demands a string. The fallback branch then asserts that the same value is an integer. Both cannot hold, so only `hour`, `day` and `week` resolve. The integer default `time_step=3600` of every query function always fails. `TimeStep.Resolve` models this, and `TimeStep.IntegersNeverResolve` states it.
- **A `week` call never succeeds.** `week` resolves, but `toStartOfWeek` returns a `Date`, not a `DateTime`. `toUInt32` of a `Date` is a count of days, and a `Date` holds at most 65535 of them. So the range `range(toUInt32(start), toUInt32(end), 604800)` (lines 26, 62 and 96) holds at most one bucket, and the unpacking at lines 33, 69 and 102 always raises. The bucketing on instants is a parameter `floor`. `Buckets.RangeBound` turns it into the range bounds: seconds for an hour or a day, a day number for a week. `Buckets.EventBucket` gives an event's bucketed time as the join compares it, where a `Date` is widened to its midnight. `Buckets.WeekRangeAtMostOne` proves the one-bucket limit, and each `Query…ByPeriod` function states that a `week` step fails with too few buckets.
- **Failures are values.** Python raises in three places. A failed assert in the resolver becomes `BadTimeStep`. An empty range gives an empty result, so the dataframe has no `hh` column and `df['hh']` raises `KeyError` (lines 33, 69 and 102). A range of one bucket leaves one value to unpack from `df['hh'].unique()[:2]`, and the unpacking raises `ValueError`. Both of the last two become `NotEnoughData(InsufficientBuckets)`: each happens exactly when the range holds fewer than two buckets.
- **NaN is `None`.** This covers a `NULL` measurement, the mean of a column with no numbers, and any arithmetic on such a mean. Means are therefore `Option<real>` and never need a non-empty precondition.
- **Gap rows.** A bucket without events yields one row with a `NULL` dimension, zero sessions and `NULL` aggregates.
- **A `NULL` key selects nothing.** pandas compares `df['names'] == None` as false on every row, a `NULL` name included. `BucketedQuery.Selects` states this. `RequestInsights.Column` and `ErrorInsights.SessionsFor` select with it, so a `NULL` host has no mean and a `NULL` error sums to zero sessions. The shares then add up to the named rows' part of the total. The query's only `NULL`-named rows are the empty gap rows, so on its results the shares of a bucket with sessions add up to one.
- **Store-side inputs become parameters.** The bucketing functions (`toStartOfHour`, ...) are a parameter `floor`. The events of the project and the event type are a sequence.
- **Canvas inputs become parameters.** The database table, the environment, decouple's `int` cast and the storage signer are parameters.
- **Null and `__proto__` in the session.** A `null` session id is a value of its own, `NullSessionId`. `update` stores it, because its guard is `!== undefined`, while `handleUpdate` deletes it from what the callbacks receive, because its guard is `== null`. A metadata key `__proto__` is never created by `this.metadata[k] = v`: that assignment calls the inherited `__proto__` setter, which ignores a string. The patch `{[key]: value}` that `setMetadata` sends does hold the key, since an object literal with a computed key defines it as its own property.
- **Session callbacks** are modelled by identity. A delivery is a (callback, payload) pair. `reset`'s `sessionStorage.removeItem` is reported as the key it removes.

## Model

| member | source | states |
|---|---|---|
| `TimeStep.Resolve` | ee/api/chalicelib/core/sessions_insights.py:6-17 | a success is one of the three tokens with its bucket width; a non-string fails the first assert; any other string fails the integer assert |
| `TimeStep.ResolveToken` | ee/api/chalicelib/core/sessions_insights.py:9-14 | resolving a bucketing's token gives back that bucketing and its width (token and resolver are inverse) |
| `TimeStep.ResolveSucceedsIff` | ee/api/chalicelib/core/sessions_insights.py:6-17 | the resolver succeeds exactly on `hour`, `day`, `week` |
| `TimeStep.Widths` | ee/api/chalicelib/core/sessions_insights.py:9-14 | the widths are 3600, 86400 and 604800 seconds |
| `TimeStep.IntegersNeverResolve` | ee/api/chalicelib/core/sessions_insights.py:7-17 | no integer resolves, so the default `3600` always fails |
| `Buckets.Range` | ee/api/chalicelib/core/sessions_insights.py:26 | the buckets start at `start`, step by `steps`, stay below `end`, and the next one would not; empty when `end <= start` |
| `Buckets.RangeLength` | ee/api/chalicelib/core/sessions_insights.py:26 | the range holds `ceil((end - start) / steps)` buckets |
| `Buckets.RangeStrictlyIncreasing` | ee/api/chalicelib/core/sessions_insights.py:26 | the buckets strictly increase, so none repeats |
| `Buckets.DayNumber` | ee/api/chalicelib/core/sessions_insights.py:14 | a `Date` is a day number between 0 and 65535; within that range it is the day holding the instant |
| `Buckets.RangeBound` | ee/api/chalicelib/core/sessions_insights.py:24-26 | `toUInt32` of a bucketed bound is the bucketed instant in seconds for an hour or a day, and a day number below 65536 for a week |
| `Buckets.EventBucket` | ee/api/chalicelib/core/sessions_insights.py:27 | an event's bucketed time is the bucketed instant for an hour or a day, and a whole-day midnight within the `Date` range for a week |
| `Buckets.WeekRangeAtMostOne` | ee/api/chalicelib/core/sessions_insights.py:14-26 | the range of a `week` query holds at most one bucket |
| `BucketedQuery.JoinKeepsEveryBucket` | ee/api/chalicelib/core/sessions_insights.py:26-27 | left-join semantics: the result's bucket column holds exactly the generated buckets, with or without events |
| `BucketedQuery.JoinKeepsEventsInRange` | ee/api/chalicelib/core/sessions_insights.py:27 | an event is in some result row exactly when its bucketed time is a generated bucket |
| `BucketedQuery.JoinConsistent` | ee/api/chalicelib/core/sessions_insights.py:27 | every row's members fell into its bucket and carry its name; only an empty row has a NULL name |
| `BucketedQuery.BucketGroupsConsistent` | ee/api/chalicelib/core/sessions_insights.py:27 | the same for the rows of one bucket |
| `BucketedQuery.JoinDescending` | ee/api/chalicelib/core/sessions_insights.py:27 | `ORDER BY T1.hh DESC`: the bucket column never increases |
| `BucketedQuery.JoinGroupsDistinct` | ee/api/chalicelib/core/sessions_insights.py:27 | `GROUP BY T1.hh, name`: no two rows share a (bucket, name) pair |
| `BucketedQuery.BucketGroups` | ee/api/chalicelib/core/sessions_insights.py:26-27 | one bucket yields at least one row, every row in that bucket; it yields exactly the single NULL-name row when no event fell into it |
| `BucketedQuery.Join` | ee/api/chalicelib/core/sessions_insights.py:26-27 | the result has at least as many rows as there are generated buckets, and every row lies in a generated bucket |
| `BucketedQuery.BucketGroupsKeepCopies` | ee/api/chalicelib/core/sessions_insights.py:26-27 | a named row of one bucket holds every copy of each of the bucket's events with its name, and no other event, so `count(session_id)` counts copies |
| `BucketedQuery.JoinKeepsCopies` | ee/api/chalicelib/core/sessions_insights.py:26-27 | a named row of the result holds every copy of each event whose bucketed time is the row's bucket and whose dimension is its name, and no other event |
| `Seqs.Filter` | ee/api/chalicelib/core/sessions_insights.py:34-35 | mask selection keeps exactly the matching elements, in order, and keeps distinctness |
| `Seqs.FilterPartition` | ee/api/chalicelib/core/sessions_insights.py:38-39 | selecting by a predicate and by its negation splits the elements without loss or duplication |
| `Seqs.Unique` | ee/api/chalicelib/core/sessions_insights.py:33 | `unique()` holds exactly the values of the column, each once, no more of them than the column has, the first value first |
| `Seqs.UniqueInOrder` | ee/api/chalicelib/core/sessions_insights.py:33 | `unique()` lists the values in the order of their first occurrence in the column |
| `Seqs.UniqueOfDistinct` | ee/api/chalicelib/core/sessions_insights.py:36-37 | on a column without repeats `unique()` returns the column itself |
| `Seqs.UniqueIdempotent` | ee/api/chalicelib/core/sessions_insights.py:36-37 | applying `unique()` twice gives the same as applying it once |
| `Seqs.FilterCount` | ee/api/chalicelib/core/sessions_insights.py:34-35 | mask selection keeps every copy of a matching value and no copy of any other |
| `Seqs.MapFilterValues` | ee/api/chalicelib/core/sessions_insights.py:44-45 | a column of the selected rows holds exactly the values the matching rows hold |
| `Seqs.FilterKeepsFirstOrder` | ee/api/chalicelib/core/sessions_insights.py:34-35 | selection keeps the order in which values first occur |
| `Seqs.UniqueAtLeastTwo` | ee/api/chalicelib/core/sessions_insights.py:33 | `unique()` has two values exactly when the column holds two different values |
| `Periods.SelectPeriods` | ee/api/chalicelib/core/sessions_insights.py:33 | succeeds exactly when two distinct buckets exist; current is the first bucket, previous the first that differs from it |
| `Periods.SelectLatestTwo` | ee/api/chalicelib/core/sessions_insights.py:33 | on a descending column current is the largest bucket and previous the largest below it |
| `Periods.Slice` | ee/api/chalicelib/core/sessions_insights.py:34-35 | `df1`/`df2` hold exactly the rows of that bucket, each as many times as in `df`, in the order of `df` |
| `Periods.SplitNames` | ee/api/chalicelib/core/sessions_insights.py:36-39 | `new` = current names not previous, `common` = current names also previous; disjoint, covering, order-preserving, distinct |
| `Periods.JoinPeriods` | ee/api/chalicelib/core/sessions_insights.py:26-35 | over the query result the selection succeeds iff the range has two buckets, and picks the last two |
| `Periods.AggregatedPeriods` | ee/api/chalicelib/core/sessions_insights.py:26-33 | for any aggregation that keeps each group's bucket, the rows of the query have the range as their bucket column, latest first, and period selection on them fails iff the range has fewer than two buckets and otherwise picks the last two |
| `Periods.PeriodsOfColumn` | ee/api/chalicelib/core/sessions_insights.py:33 | a descending column with the values of an increasing bucket list yields its last two buckets |
| `Stats.Mean` | ee/api/chalicelib/core/sessions_insights.py:46-47 | the mean is a number exactly when the column holds one |
| `Stats.MeanWithin` | ee/api/chalicelib/core/sessions_insights.py:46-47 | the mean lies between any lower and upper bound of the numbers |
| `Stats.MeanOfConstant` | ee/api/chalicelib/core/sessions_insights.py:46-47 | the mean of a constant column is that constant |
| `Stats.Diff` | ee/api/chalicelib/core/sessions_insights.py:46-47 | the difference is defined iff both means are, and adding it to the previous mean gives the current one |
| `Stats.Share` | ee/api/chalicelib/core/sessions_insights.py:81 | the share is defined iff the total is non-zero, and times the total gives the part |
| `Stats.RelativeChange` | ee/api/chalicelib/core/sessions_insights.py:105-107 | defined iff both means are numbers and the previous is non-zero; `m2 * (1 + r) == m1` |
| `Ranking.SortBy` | ee/api/chalicelib/core/sessions_insights.py:49-52 | `sort_values` result is sorted (NaN last in either direction) and a permutation of its input |
| `Ranking.PrecedesTotalPreorder` | ee/api/chalicelib/core/sessions_insights.py:49-52 | the NaN-last order is reflexive, total and transitive |
| `RequestInsights.Aggregate` | ee/api/chalicelib/core/sessions_insights.py:26 | a row's count is its group's size; its means are defined iff a member has the measurement; its sources are the members' paths |
| `RequestInsights.Column` | ee/api/chalicelib/core/sessions_insights.py:44-45 | `df[df['names'] == n][col]` has one entry per row of host `n`, and its values are exactly the values those rows hold in `col`; a `NULL` key selects nothing |
| `RequestInsights.NamedRowCount` | ee/api/chalicelib/core/sessions_insights.py:44 | host `n` has as many selected rows as its name has copies in the names column, and a `NULL` key has none |
| `RequestInsights.ColumnMeanDefined` | ee/api/chalicelib/core/sessions_insights.py:44-47 | a host's mean in a column is a number exactly when one of its rows holds a number there; never for a `NULL` key |
| `RequestInsights.MeanDelta` | ee/api/chalicelib/core/sessions_insights.py:46-47 | the delta is defined iff both periods' means are, and the previous mean plus the delta is the current mean |
| `RequestInsights.MeanDeltaDefined` | ee/api/chalicelib/core/sessions_insights.py:44-47 | the delta is a number exactly when both periods hold a number for the host in that column; never for a `NULL` key |
| `RequestInsights.Deltas` | ee/api/chalicelib/core/sessions_insights.py:41-47 | one entry per common host, in order, each the difference of that host's means |
| `RequestInsights.Compare` | ee/api/chalicelib/core/sessions_insights.py:33-53 | the new hosts; both delta tables keyed by exactly the common hosts, each value the difference of means, sorted descending/ascending; the current rows ranked by success rate and by duration as permutations |
| `RequestInsights.RankedKeys` | ee/api/chalicelib/core/sessions_insights.py:49-50 | ranking a table keeps its keys and their distinctness |
| `RequestInsights.RankedValues` | ee/api/chalicelib/core/sessions_insights.py:49-50 | ranking a delta table keeps each entry's value correct |
| `RequestInsights.ConstantColumnDelta` | ee/api/chalicelib/core/sessions_insights.py:44-47 | when rows selected by the host hold `a` now and `b` before, its delta is `a - b` |
| `RequestInsights.RequestRows` | ee/api/chalicelib/core/sessions_insights.py:23-33 | the query rows have the range as their bucket column, latest first; period selection on them fails iff the range has fewer than two buckets, else picks the last two |
| `RequestInsights.QueryRequestsByPeriod` | ee/api/chalicelib/core/sessions_insights.py:20-53 | a rejected step fails with that assert; with an accepted step the call succeeds iff the range has two buckets or more, fails otherwise with too few buckets, and on success returns the comparison of the query rows; a `week` step always fails with too few buckets |
| `ErrorInsights.SessionsFor` | ee/api/chalicelib/core/sessions_insights.py:81 | one error's session sum never exceeds the total, and is zero for a `NULL` key |
| `ErrorInsights.SessionSum` | ee/api/chalicelib/core/sessions_insights.py:78 | the total is at least the session count of every row |
| `ErrorInsights.Increases` | ee/api/chalicelib/core/sessions_insights.py:82-83 | one increase per common error, in the order of the common errors |
| `ErrorInsights.Percentages` | ee/api/chalicelib/core/sessions_insights.py:80-81 | one share per current error, in order; defined iff the total is non-zero |
| `ErrorInsights.PercentageValues` | ee/api/chalicelib/core/sessions_insights.py:80-81 | each share is that error's session sum over the total |
| `ErrorInsights.IncreaseValues` | ee/api/chalicelib/core/sessions_insights.py:82-83 | each increase is the current minus the previous session sum |
| `ErrorInsights.NamesPartitionSessions` | ee/api/chalicelib/core/sessions_insights.py:78-81 | the per-name session sums over the distinct names plus the `NULL` rows' sessions add up to the total |
| `ErrorInsights.SharesSumToOne` | ee/api/chalicelib/core/sessions_insights.py:77-81 | when the current bucket has sessions, the shares add up to the named rows' part of them, so to one when `NULL` rows hold none |
| `ErrorInsights.NullRowsLeftOutOfShares` | ee/api/chalicelib/core/sessions_insights.py:77-81 | a `NULL` error with three sessions beside error `a` with one gets no sessions, and the shares add up to a quarter |
| `ErrorInsights.Report` | ee/api/chalicelib/core/sessions_insights.py:72-87 | shares keyed by exactly the current errors, each its part, summing to the named rows' part of the total (one when `NULL` rows are empty); increases keyed by exactly the common errors; the new errors; the raw table |
| `ErrorInsights.Compare` | ee/api/chalicelib/core/sessions_insights.py:69-87 | succeeds iff period selection does, reporting on the current and previous bucket's rows; the shares add up to one when the `NULL` rows are empty and the current bucket has sessions |
| `ErrorInsights.ErrorRows` | ee/api/chalicelib/core/sessions_insights.py:59-69 | the query rows have the range as their bucket column, latest first; period selection on them fails iff the range has fewer than two buckets, else picks the last two; every `NULL`-named row has no sessions |
| `ErrorInsights.QueryMostErrorsByPeriod` | ee/api/chalicelib/core/sessions_insights.py:56-87 | a rejected step fails with that assert; with an accepted step the call succeeds iff the range has two buckets or more, fails otherwise with too few buckets, and on success returns the comparison of the query rows, whose shares add up to one when the current bucket has sessions; a `week` step always fails with too few buckets |
| `ResourceInsights.Aggregate` | ee/api/chalicelib/core/sessions_insights.py:96 | a row's count is its group's size; its CPU and heap means are defined iff a member has the measurement |
| `ResourceInsights.Movement` | ee/api/chalicelib/core/sessions_insights.py:105-107 | `cpu_increase` is the difference of means; `memory_increase` satisfies `m2 * (1 + r) == m1`, undefined when `m2` is zero or NaN |
| `ResourceInsights.Compare` | ee/api/chalicelib/core/sessions_insights.py:102-107 | succeeds iff period selection does, reporting the movement from the previous to the current bucket |
| `ResourceInsights.ConstantMeans` | ee/api/chalicelib/core/sessions_insights.py:105-107 | with constant columns the report is `(c1 - c2, (m1 - m2) / m2)` |
| `ResourceInsights.ResourceRows` | ee/api/chalicelib/core/sessions_insights.py:93-102 | the query rows have the range as their bucket column, latest first; period selection on them fails iff the range has fewer than two buckets, else picks the last two |
| `ResourceInsights.QueryCpuMemoryByPeriod` | ee/api/chalicelib/core/sessions_insights.py:90-107 | a rejected step fails with that assert; with an accepted step the call succeeds iff the range has two buckets or more, fails otherwise with too few buckets, and on success returns the comparison of the query rows; a `week` step always fails with too few buckets |
| `SessionState.New` | tracker/tracker/src/main/app/session.ts:18-23 | empty metadata, null user, no session id, no callbacks, timestamp 0, no project |
| `SessionState.Attach` | tracker/tracker/src/main/app/session.ts:27-29 | the callback joins the end of the list; nothing else changes |
| `SessionState.Payload` | tracker/tracker/src/main/app/session.ts:30-36 | the payload never has a null user or a null session id, keeps a given user and a given string session id, and differs from the patch in nothing else |
| `SessionState.Notify` | tracker/tracker/src/main/app/session.ts:37 | one delivery per callback, in attach order, all with the same payload |
| `SessionState.Merge` | tracker/tracker/src/main/app/session.ts:45-47 | patched keys other than `__proto__` take the new value, other keys keep theirs, none is removed, and no `__proto__` key is created |
| `SessionState.Update` | tracker/tracker/src/main/app/session.ts:40-58 | exactly the given keys change (a null user and a null session id included), metadata merges, callbacks stay, every callback is notified |
| `SessionState.SetMetadata` | tracker/tracker/src/main/app/session.ts:60-63 | the key written unless it is `__proto__`, others kept, every callback told `{metadata: {k: v}}` |
| `SessionState.SetUserID` | tracker/tracker/src/main/app/session.ts:64-67 | the user written, nothing else, every callback told `{userID: u}` |
| `SessionState.GetInfo` | tracker/tracker/src/main/app/session.ts:69-77 | the five current fields |
| `SessionState.Reset` | tracker/tracker/src/main/app/session.ts:79-85 | metadata, user, session id and timestamp back to initial; project and callbacks kept; the token key removed |
| `SessionState.SetMetadataIsUpdate` | tracker/tracker/src/main/app/session.ts:60-63 | `setMetadata(k, v)` equals `update({metadata: {k: v}})` |
| `SessionState.SetUserIDIsUpdate` | tracker/tracker/src/main/app/session.ts:64-67 | `setUserID(u)` equals `update({userID: u})` |
| `SessionState.DeliveriesNeverCarryNull` | tracker/tracker/src/main/app/session.ts:30-38 | no delivery carries a null user or a null session id; the other keys arrive as given |
| `SessionState.NullUserClearsSilently` | tracker/tracker/src/main/app/session.ts:30-43 | `update({userID: null})` stores null and the callbacks get an empty patch |
| `SessionState.NullSessionIdStoredSilently` | tracker/tracker/src/main/app/session.ts:34-50 | `update({sessionID: null})` stores null and the callbacks get an empty patch |
| `SessionState.UpdateIdempotent` | tracker/tracker/src/main/app/session.ts:40-58 | applying a patch twice equals applying it once |
| `SessionState.UpdateCompose` | tracker/tracker/src/main/app/session.ts:40-58 | two updates equal one update with the combined patch |
| `SessionState.MergeAssociative` | tracker/tracker/src/main/app/session.ts:45-47 | merging metadata is associative |
| `SessionState.ResetThenRestore` | tracker/tracker/src/main/app/session.ts:69-85 | in every reachable state, updating a reset session with the earlier `getInfo` restores the session |
| `SessionState.OperationsKeepReachable` | tracker/tracker/src/main/app/session.ts:18-85 | a new session has no `__proto__` metadata key, and no operation adds one |
| `SessionState.ResetIdempotent` | tracker/tracker/src/main/app/session.ts:79-85 | resetting twice equals resetting once; a reset session reads as a new one with its project |
| `SessionState.AttachOrder` | tracker/tracker/src/main/app/session.ts:27-37 | a newly attached callback is notified last, once |
| `CanvasUrls.FetchRecordings` | api/chalicelib/core/canvas.py:8-15 | the session's recordings, sorted by timestamp, as a permutation of the matching rows |
| `CanvasUrls.FetchedRowsOfSession` | api/chalicelib/core/canvas.py:8-13 | a row is fetched exactly when it belongs to the session |
| `CanvasUrls.Bucket` | api/chalicelib/core/canvas.py:19 | `CANVAS_BUCKET`, else `sessions_bucket`; fails whenever `sessions_bucket` is missing |
| `CanvasUrls.Expiry` | api/chalicelib/core/canvas.py:20 | the cast setting, 900 when absent, failing when the cast fails |
| `CanvasUrls.Settings` | api/chalicelib/core/canvas.py:19-20 | succeeds iff both settings resolve; a missing `sessions_bucket` is reported first, then a failed cast; on success the two values |
| `CanvasUrls.Expected` | api/chalicelib/core/canvas.py:15-23 | the result has `2N` entries: row `i` at `i` and its URL, signed with the settings, at `N + i` |
| `CanvasUrls.AppendUrls` | api/chalicelib/core/canvas.py:17-22 | the rows unchanged then one URL per row in row order, all signed with the same bucket and expiry; fails iff there are rows and a setting fails |
| `CanvasUrls.PresignedUrls` | api/chalicelib/core/canvas.py:6-23 | the same for the fetched recordings |
| `CanvasUrls.ProjectIgnored` | api/chalicelib/core/canvas.py:8-13 | two calls differing only in the project id return the same result |

## Left out

- SQL text construction and execution: the interpolated query strings, the ClickHouse and Postgres clients, and the `project_id`/`event_type` filters. The model receives the project's events of the right type.
- The default `start_time` and `end_time` of the three query functions (lines 20-21, 56-57 and 90-91). Python evaluates them once, when the module is imported, as the dates of the day before and of that day, so a long-running process keeps using the day it started on. The model takes both times as parameters and has no defaults.
- Time conversion: `toDateTime64` of the date strings, `toDateTime` of the buckets, the range of `DateTime`, and time zones, including the server's midnight when a `Date` is widened. Times are whole seconds, and the bucketing on instants, `floor`, is a parameter.
- `Buckets.DayNumber`: a day outside the `Date` range is clamped to its ends. ClickHouse's own handling of such values is not modelled. Only the bound below 65536 matters to the `week` result.
- The gap-row representation depends on the server's `join_use_nulls` setting. The model uses the NULL form.
- A `NULL` `url_host` or error `name` in the events table. `RequestEvent.urlHost` and `ErrorEvent.name` are non-null strings, so the only `NULL`-named rows of a query are the empty gap rows. A `NULL` dimension on an event would give a `NULL`-named row with sessions, whose sessions no share counts (`ErrorInsights.Report` states that general sum).
- `BucketedQuery.Join`: the order of rows within one bucket is unspecified in SQL. The model fixes it to first appearance of the name among the events.
- `Ranking.SortBy`: promises sortedness and permutation, not the order pandas' unstable default sort gives to equal keys.
- `CanvasUrls.FetchRecordings`: promises sortedness and permutation, not Postgres' order among equal timestamps.
- `Stats.RelativeChange`: a zero previous mean is `None`. numpy gives ±inf for a non-zero numerator and NaN for `0/0`; the model does not distinguish infinities from NaN.
- `Stats.Mean`: the mean is exact over the reals. Floating-point rounding is not modelled.
- Python's `-O` flag, which strips asserts and would let the unreachable integer-minutes branch run.
- `sessionStorage.removeItem` in `reset` is reported as the removed key, not performed. The storage itself is not modelled.
- Aliasing in the session: `getInfo` returns the live metadata object, and `handleUpdate` deletes keys from the caller's patch object. The model copies values.
- `SessionState.Update`: a `null` timestamp, project id or metadata is not representable. They lie outside the declared types. A `null` metadata would make `Object.entries` throw, and a `null` timestamp or project id would be stored.
- `SessionState.Merge`: metadata values are strings, so a non-string value under the `__proto__` key, which would replace the metadata object's prototype, is not modelled.
- Session callbacks that throw, or that call back into the session while being notified. Callbacks are identities, not code.
- The `__main__` demo block of the comparator file.
- `ee/backend/pkg/kafka/consumer.go`, `frontend/app/components/Session_/recorder.ts` and `tracker/tracker-sdk/src/index.ts` are not part of this model. They are network, media and DOM plumbing.

=== FILE: bucketed_query.dfy ===
/** The bucketed aggregate query shared by the three period comparators.
    The generated bucket sequence (`T1`) is left-joined to the events whose
    bucketed time equals a bucket (`T2`). The result is grouped by bucket and
    dimension and ordered by bucket, descending. A group keeps the events
    that fell into it, so each comparator computes its aggregates
    (`count`, `avg`, `groupUniqArray`) from the members. */
module BucketedQuery {
  import opened Wrappers
  import opened Seqs

  /** The dimension column of a result row. It is NULL (`None`) on the row
      that the left join produces for a bucket without events. */
  type Name = Option<string>

  /** pandas' `df['names'] == n` on one row: a NULL key equals nothing, not
      even a NULL name. */
  predicate Selects(name: Name, n: Name) {
    n.Some? && name == n
  }

  /** One result row before aggregation: the bucket `hh`, the dimension
      value and the joined events of that (bucket, dimension) pair. */
  datatype Group<E> = Group(hh: int, name: Name, members: seq<E>)

  /** The groups of one bucket, given the events whose bucketed time is `hh`.
      A bucket with no events still yields one row, with a NULL name. */
  function BucketGroups<E(==,!new)>(hh: int, inBucket: seq<E>, dim: E -> string): (r: seq<Group<E>>)
    ensures |r| > 0 && forall i :: 0 <= i < |r| ==> r[i].hh == hh
    ensures |inBucket| == 0 <==> r == [Group(hh, None, [])]
  {
    if |inBucket| == 0 then [Group(hh, None, [])]
    else
      var names := Unique(Map(inBucket, dim));
      var groups := seq(|names|, i requires 0 <= i < |names| =>
        Group(hh, Some(names[i]), Filter(inBucket, e => dim(e) == names[i])));
      assert groups[0].name.Some?;
      groups
  }

  /** The whole query over an ascending bucket sequence. `dtime` is the
      bucketed time of an event and `dim` its dimension value. Later buckets
      come first (`ORDER BY T1.hh DESC`). */
  function Join<E(==,!new)>(buckets: seq<int>, events: seq<E>, dtime: E -> int, dim: E -> string): (r: seq<Group<E>>)
    ensures |r| >= |buckets|
    ensures forall i :: 0 <= i < |r| ==> r[i].hh in buckets
  {
    if |buckets| == 0 then []
    else
      Join(buckets[1..], events, dtime, dim)
        + BucketGroups(buckets[0], Filter(events, e => dtime(e) == buckets[0]), dim)
  }

  /** The bucket column of the result. */
  function BucketColumnOf<E>(groups: seq<Group<E>>): (r: seq<int>)
    ensures |r| == |groups| && forall i :: 0 <= i < |r| ==> r[i] == groups[i].hh
  {
    Map(groups, (g: Group<E>) => g.hh)
  }

  /** A row agrees with the join condition and the grouping key: every member
      fell into the row's bucket and carries the row's name. A NULL name
      marks the row of an empty bucket, and only that row. */
  predicate Consistent<E>(g: Group<E>, dtime: E -> int, dim: E -> string) {
    && (forall k :: 0 <= k < |g.members| ==> dtime(g.members[k]) == g.hh)
    && (forall k :: 0 <= k < |g.members| ==> g.name.Some? && dim(g.members[k]) == g.name.value)
    && (g.name.None? <==> |g.members| == 0)
  }

  lemma {:induction false} BucketGroupsConsistent<E(!new)>(hh: int, inBucket: seq<E>, dtime: E -> int, dim: E -> string)
    requires forall k :: 0 <= k < |inBucket| ==> dtime(inBucket[k]) == hh
    ensures forall i :: 0 <= i < |BucketGroups(hh, inBucket, dim)| ==>
              BucketGroups(hh, inBucket, dim)[i].hh == hh
              && Consistent(BucketGroups(hh, inBucket, dim)[i], dtime, dim)
  {
    var gs := BucketGroups(hh, inBucket, dim);
    if |inBucket| > 0 {
      var names := Unique(Map(inBucket, dim));
      forall i | 0 <= i < |gs| ensures gs[i].hh == hh && Consistent(gs[i], dtime, dim) {
        var ms := Filter(inBucket, e => dim(e) == names[i]);
        assert gs[i].members == ms;
        assert names[i] in Map(inBucket, dim);
        var j :| 0 <= j < |inBucket| && dim(inBucket[j]) == names[i];
        assert inBucket[j] in ms;
        forall k | 0 <= k < |ms| ensures dtime(ms[k]) == hh && dim(ms[k]) == names[i] {
          assert ms[k] in inBucket;
        }
      }
    }
  }

  /** `count(T2.session_id)` counts copies: a named row of one bucket holds
      every copy of every event of the bucket that carries its name, and no
      other event. */
  lemma BucketGroupsKeepCopies<E(!new)>(hh: int, inBucket: seq<E>, dim: E -> string, i: nat, x: E)
    requires i < |BucketGroups(hh, inBucket, dim)| && BucketGroups(hh, inBucket, dim)[i].name.Some?
    ensures var g := BucketGroups(hh, inBucket, dim)[i];
            multiset(g.members)[x] == if dim(x) == g.name.value then multiset(inBucket)[x] else 0
  {
    var names := Unique(Map(inBucket, dim));
    assert |inBucket| > 0;
    assert BucketGroups(hh, inBucket, dim)[i].members == Filter(inBucket, e => dim(e) == names[i]);
    FilterCountOf(inBucket, e => dim(e) == names[i], x);
  }

  /** The same for the whole result: a named row holds every copy of every
      event whose bucketed time is the row's bucket and whose dimension is
      the row's name, and no other event. */
  lemma {:induction false} JoinKeepsCopies<E(!new)>(buckets: seq<int>, events: seq<E>, dtime: E -> int, dim: E -> string,
                                                     i: nat, x: E)
    requires i < |Join(buckets, events, dtime, dim)| && Join(buckets, events, dtime, dim)[i].name.Some?
    ensures var g := Join(buckets, events, dtime, dim)[i];
            multiset(g.members)[x] == if dtime(x) == g.hh && dim(x) == g.name.value then multiset(events)[x] else 0
  {
    var rest := Join(buckets[1..], events, dtime, dim);
    var inBucket := Filter(events, e => dtime(e) == buckets[0]);
    var here := BucketGroups(buckets[0], inBucket, dim);
    assert Join(buckets, events, dtime, dim) == rest + here;
    if i < |rest| {
      JoinKeepsCopies(buckets[1..], events, dtime, dim, i, x);
    } else {
      BucketGroupsKeepCopies(buckets[0], inBucket, dim, i - |rest|, x);
      FilterCountOf(events, e => dtime(e) == buckets[0], x);
    }
  }

  /** Every row of the result lies in a generated bucket and is consistent
      with the join condition and the grouping. */
  lemma {:induction false} JoinConsistent<E(!new)>(buckets: seq<int>, events: seq<E>, dtime: E -> int, dim: E -> string)
    ensures forall i :: 0 <= i < |Join(buckets, events, dtime, dim)| ==>
              Join(buckets, events, dtime, dim)[i].hh in buckets
              && Consistent(Join(buckets, events, dtime, dim)[i], dtime, dim)
  {
    if |buckets| > 0 {
      var b := buckets[0];
      var rest := Join(buckets[1..], events, dtime, dim);
      var inBucket := Filter(events, e => dtime(e) == b);
      var here := BucketGroups(b, inBucket, dim);
      JoinConsistent(buckets[1..], events, dtime, dim);
      forall k | 0 <= k < |inBucket| ensures dtime(inBucket[k]) == b {
        assert inBucket[k] in inBucket;
      }
      BucketGroupsConsistent(b, inBucket, dtime, dim);
      var r := rest + here;
      assert Join(buckets, events, dtime, dim) == r;
      forall i | 0 <= i < |r| ensures r[i].hh in buckets && Consistent(r[i], dtime, dim) {
        if i < |rest| {
          assert r[i] == rest[i];
        } else {
          assert r[i] == here[i - |rest|];
        }
      }
    }
  }

  /** Left-join semantics: every generated bucket appears in the result,
      with or without events. */
  lemma {:induction false} JoinKeepsEveryBucket<E(!new)>(buckets: seq<int>, events: seq<E>, dtime: E -> int, dim: E -> string)
    ensures forall t :: t in buckets <==> t in BucketColumnOf(Join(buckets, events, dtime, dim))
  {
    if |buckets| > 0 {
      var b := buckets[0];
      var rest := Join(buckets[1..], events, dtime, dim);
      var here := BucketGroups(b, Filter(events, e => dtime(e) == b), dim);
      JoinKeepsEveryBucket(buckets[1..], events, dtime, dim);
      OneBucketColumn(b, Filter(events, e => dtime(e) == b), dim);
      assert BucketColumnOf(Join(buckets, events, dtime, dim)) == BucketColumnOf(rest) + BucketColumnOf(here);
      forall t ensures t in buckets <==> t in BucketColumnOf(rest) + BucketColumnOf(here) {
        assert t in buckets <==> t == b || t in buckets[1..];
      }
    }
  }

  /** The rows of one bucket all carry that bucket, and there is at least
      one. */
  lemma OneBucketColumn<E(!new)>(hh: int, inBucket: seq<E>, dim: E -> string)
    ensures forall t :: t in BucketColumnOf(BucketGroups(hh, inBucket, dim)) <==> t == hh
  {
    var col := BucketColumnOf(BucketGroups(hh, inBucket, dim));
    assert col[0] == hh;
  }

  /** Some row of `groups` has `e` among its members. */
  ghost predicate Covers<E>(groups: seq<Group<E>>, e: E) {
    exists i :: 0 <= i < |groups| && e in groups[i].members
  }

  /** An event takes part in the result exactly when its bucketed time is a
      generated bucket; events outside the range are dropped. */
  lemma {:induction false} JoinKeepsEventsInRange<E(!new)>(buckets: seq<int>, events: seq<E>, dtime: E -> int, dim: E -> string, e: E)
    requires e in events
    ensures dtime(e) in buckets <==> Covers(Join(buckets, events, dtime, dim), e)
  {
    var r := Join(buckets, events, dtime, dim);
    if dtime(e) in buckets {
      JoinCoversEvent(buckets, events, dtime, dim, e);
    }
    if Covers(r, e) {
      var i :| 0 <= i < |r| && e in r[i].members;
      JoinConsistent(buckets, events, dtime, dim);
      var k :| 0 <= k < |r[i].members| && r[i].members[k] == e;
      assert dtime(e) == r[i].hh;
    }
  }

  lemma {:induction false} JoinCoversEvent<E(!new)>(buckets: seq<int>, events: seq<E>, dtime: E -> int, dim: E -> string, e: E)
    requires e in events && dtime(e) in buckets
    ensures Covers(Join(buckets, events, dtime, dim), e)
  {
    var b := buckets[0];
    var rest := Join(buckets[1..], events, dtime, dim);
    var inBucket := Filter(events, x => dtime(x) == b);
    var here := BucketGroups(b, inBucket, dim);
    assert Join(buckets, events, dtime, dim) == rest + here;
    if dtime(e) == b {
      assert e in inBucket;
      BucketGroupsCoverEvent(b, inBucket, dim, e);
    } else {
      assert dtime(e) in buckets[1..];
      JoinCoversEvent(buckets[1..], events, dtime, dim, e);
    }
    CoversAppend(rest, here, e);
  }

  lemma CoversAppend<E>(a: seq<Group<E>>, b: seq<Group<E>>, e: E)
    ensures Covers(a, e) || Covers(b, e) ==> Covers(a + b, e)
  {
    if Covers(a, e) {
      var i :| 0 <= i < |a| && e in a[i].members;
      assert (a + b)[i] == a[i];
    } else if Covers(b, e) {
      var i :| 0 <= i < |b| && e in b[i].members;
      assert (a + b)[|a| + i] == b[i];
    }
  }

  lemma BucketGroupsCoverEvent<E(!new)>(hh: int, inBucket: seq<E>, dim: E -> string, e: E)
    requires e in inBucket
    ensures Covers(BucketGroups(hh, inBucket, dim), e)
  {
    var names := Unique(Map(inBucket, dim));
    assert dim(e) in Map(inBucket, dim);
    var n :| 0 <= n < |names| && names[n] == dim(e);
    assert e in BucketGroups(hh, inBucket, dim)[n].members;
  }

  /** `ORDER BY T1.hh DESC`: over an increasing bucket sequence the bucket
      column of the result never increases. */
  lemma {:induction false} JoinDescending<E(!new)>(buckets: seq<int>, events: seq<E>, dtime: E -> int, dim: E -> string)
    requires forall i, j :: 0 <= i < j < |buckets| ==> buckets[i] < buckets[j]
    ensures forall i, j :: 0 <= i < j < |Join(buckets, events, dtime, dim)| ==>
              Join(buckets, events, dtime, dim)[i].hh >= Join(buckets, events, dtime, dim)[j].hh
  {
    if |buckets| > 0 {
      var b := buckets[0];
      var rest := Join(buckets[1..], events, dtime, dim);
      var here := BucketGroups(b, Filter(events, e => dtime(e) == b), dim);
      JoinDescending(buckets[1..], events, dtime, dim);
      AfterFirstBucket(buckets, rest);
      DescendingConcat(rest, here, b);
      assert Join(buckets, events, dtime, dim) == rest + here;
    }
  }

  /** Every row of the join over the later buckets lies above the first. */
  lemma AfterFirstBucket<E>(buckets: seq<int>, rest: seq<Group<E>>)
    requires |buckets| > 0
    requires forall i, j :: 0 <= i < j < |buckets| ==> buckets[i] < buckets[j]
    requires forall i :: 0 <= i < |rest| ==> rest[i].hh in buckets[1..]
    ensures forall i :: 0 <= i < |rest| ==> rest[i].hh > buckets[0]
  {
    forall i | 0 <= i < |rest| ensures rest[i].hh > buckets[0] {
      var t := rest[i].hh;
      assert t in buckets[1..];
      var k :| 0 <= k < |buckets[1..]| && buckets[1..][k] == t;
      assert buckets[k + 1] == t;
    }
  }

  /** Rows in non-increasing bucket order, followed by rows of one lower
      bucket, stay in non-increasing bucket order. */
  lemma DescendingConcat<E>(rest: seq<Group<E>>, here: seq<Group<E>>, b: int)
    requires forall i, j :: 0 <= i < j < |rest| ==> rest[i].hh >= rest[j].hh
    requires forall i :: 0 <= i < |rest| ==> rest[i].hh > b
    requires forall i :: 0 <= i < |here| ==> here[i].hh == b
    ensures forall i, j :: 0 <= i < j < |rest + here| ==> (rest + here)[i].hh >= (rest + here)[j].hh
  {
  }

  /** `GROUP BY T1.hh, T2.name`: within one bucket no two rows share a name. */
  lemma {:induction false} BucketGroupsDistinct<E(!new)>(hh: int, inBucket: seq<E>, dim: E -> string)
    ensures forall i, j :: 0 <= i < j < |BucketGroups(hh, inBucket, dim)| ==>
              BucketGroups(hh, inBucket, dim)[i].name != BucketGroups(hh, inBucket, dim)[j].name
  {
  }

  lemma {:induction false} JoinGroupsDistinct<E(!new)>(buckets: seq<int>, events: seq<E>, dtime: E -> int, dim: E -> string)
    requires forall i, j :: 0 <= i < j < |buckets| ==> buckets[i] < buckets[j]
    ensures forall i, j :: 0 <= i < j < |Join(buckets, events, dtime, dim)| ==>
              Join(buckets, events, dtime, dim)[i].hh != Join(buckets, events, dtime, dim)[j].hh
              || Join(buckets, events, dtime, dim)[i].name != Join(buckets, events, dtime, dim)[j].name
  {
    if |buckets| > 0 {
      var b := buckets[0];
      var rest := Join(buckets[1..], events, dtime, dim);
      var inBucket := Filter(events, e => dtime(e) == b);
      var here := BucketGroups(b, inBucket, dim);
      JoinGroupsDistinct(buckets[1..], events, dtime, dim);
      JoinConsistent(buckets[1..], events, dtime, dim);
      BucketGroupsDistinct(b, inBucket, dim);
      var r := rest + here;
      assert Join(buckets, events, dtime, dim) == r;
      assert forall i :: 0 <= i < |here| ==> here[i].hh == b;
      forall i, j | 0 <= i < j < |r| ensures r[i].hh != r[j].hh || r[i].name != r[j].name {
        if j < |rest| {
          assert r[i] == rest[i] && r[j] == rest[j];
        } else if i < |rest| {
          assert rest[i].hh in buckets[1..];
          assert r[i] == rest[i] && r[j] == here[j - |rest|];
        } else {
          assert r[i] == here[i - |rest|] && r[j] == here[j - |rest|];
        }
      }
    }
  }
}

=== FILE: buckets.dfy ===
/** The synthetic bucket sequence of the aggregate queries,
    `range(toUInt32(start), toUInt32(end), steps)`: the half-open arithmetic
    progression from `start` towards `end`. Timestamps are seconds. */
module Buckets {
  import opened TimeStep

  /** ClickHouse `range(start, end, step)`. */
  function Range(start: int, end: int, step: int): (r: seq<int>)
    requires step > 0
    ensures forall i :: 0 <= i < |r| ==> r[i] == start + i * step
    ensures forall i :: 0 <= i < |r| ==> r[i] < end
    ensures end <= start ==> |r| == 0
    ensures end > start ==> |r| > 0 && start + (|r| - 1) * step < end <= start + |r| * step
    decreases end - start
  {
    if start >= end then []
    else
      var rest := Range(start + step, end, step);
      PrependBucket(start, end, step, rest);
      [start] + rest
  }

  /** Prepending `start` to the buckets counted from `start + step` gives the
      buckets counted from `start`. */
  lemma PrependBucket(start: int, end: int, step: int, rest: seq<int>)
    requires step > 0 && start < end
    requires forall i :: 0 <= i < |rest| ==> rest[i] == start + step + i * step
    requires forall i :: 0 <= i < |rest| ==> rest[i] < end
    requires end <= start + step ==> |rest| == 0
    requires end > start + step ==> |rest| > 0 && start + step + (|rest| - 1) * step < end <= start + step + |rest| * step
    ensures forall i :: 0 <= i < |[start] + rest| ==> ([start] + rest)[i] == start + i * step
    ensures forall i :: 0 <= i < |[start] + rest| ==> ([start] + rest)[i] < end
    ensures start + (|[start] + rest| - 1) * step < end <= start + |[start] + rest| * step
  {
    var n := |rest|;
    ShiftByStep(start, step, n);
    assert (n + 1) * step == n * step + step;
  }

  /** Bucket `i` counted from `start` is bucket `i - 1` counted from the next one. */
  lemma ShiftByStep(start: int, step: int, n: nat)
    ensures forall i :: 1 <= i <= n ==> start + i * step == (start + step) + (i - 1) * step
  {
    forall i | 1 <= i <= n ensures start + i * step == (start + step) + (i - 1) * step {
      assert (i - 1) * step == i * step - step;
    }
  }

  /** Ceiling division of a positive span by a positive step. */
  function CeilDiv(span: int, step: int): int
    requires span > 0 && step > 0
  {
    (span + step - 1) / step
  }

  /** The sequence holds `ceil((end - start) / step)` buckets. */
  lemma {:induction false} RangeLength(start: int, end: int, step: int)
    requires step > 0 && end > start
    ensures |Range(start, end, step)| == CeilDiv(end - start, step)
  {
    var n := |Range(start, end, step)|;
    var span := end - start;
    assert (n - 1) * step < span <= n * step;
    CeilDivUnique(span, step, n);
  }

  /** `n` is the ceiling of `span / step` when `(n - 1) * step < span <= n * step`. */
  lemma {:induction false} CeilDivUnique(span: int, step: int, n: int)
    requires span > 0 && step > 0
    requires (n - 1) * step < span <= n * step
    ensures CeilDiv(span, step) == n
  {
    var q := CeilDiv(span, step);
    var m := span + step - 1;
    assert q * step <= m < q * step + step;
    assert n * step <= m;
    assert m < n * step + step;
    if q < n {
      LessMul(q + 1, n, step);
    } else if q > n {
      LessMul(n + 1, q, step);
    }
  }

  lemma LessMul(a: int, b: int, step: int)
    requires a <= b && step > 0
    ensures a * step <= b * step
  {
  }

  /** Successive buckets are strictly increasing, so the sequence has no
      repeated bucket. */
  lemma {:induction false} RangeStrictlyIncreasing(start: int, end: int, step: int)
    requires step > 0
    ensures forall i, j :: 0 <= i < j < |Range(start, end, step)| ==>
              Range(start, end, step)[i] < Range(start, end, step)[j]
  {
    var r := Range(start, end, step);
    forall i, j | 0 <= i < j < |r| ensures r[i] < r[j] {
      LessMul(i + 1, j, step);
    }
  }

  /** The largest day number of a ClickHouse `Date` (2149-06-06): the type
      holds an unsigned 16-bit count of days since 1970-01-01. */
  const MaxDay: int := 65535

  /** The `Date` of the day that starts at instant `t`, as its day number.
      Days outside the range of the type are clamped to its ends. */
  function DayNumber(t: int): (d: int)
    ensures 0 <= d <= MaxDay
    ensures 0 <= t < (MaxDay + 1) * 86400 ==> d * 86400 <= t < (d + 1) * 86400
  {
    if t < 0 then 0 else if t / 86400 > MaxDay then MaxDay else t / 86400
  }

  /** `toUInt32` of a bucketed bound, `start` or `end`, where `floor` is the
      bucketing on instants. `toStartOfHour` and `toStartOfDay` return a
      `DateTime`, which converts to seconds; `toStartOfWeek` returns a
      `Date`, which converts to a count of days. */
  function RangeBound(b: Bucketing, floor: (Bucketing, int) -> int, t: int): (r: int)
    ensures b != StartOfWeek ==> r == floor(b, t)
    ensures b == StartOfWeek ==> 0 <= r <= MaxDay
  {
    if b == StartOfWeek then DayNumber(floor(b, t)) else floor(b, t)
  }

  /** An event's bucketed time as `T2.dtime = T1.hh` compares it with a
      bucket: a `Date` is widened to the `DateTime` of its midnight. */
  function EventBucket(b: Bucketing, floor: (Bucketing, int) -> int, t: int): (r: int)
    ensures b != StartOfWeek ==> r == floor(b, t)
    ensures b == StartOfWeek ==> r % 86400 == 0 && 0 <= r <= MaxDay * 86400
  {
    if b == StartOfWeek then DayNumber(floor(b, t)) * 86400 else floor(b, t)
  }

  /** A `week` range holds at most one bucket: its bounds are day numbers,
      all below 65536, while its step is 604800. */
  lemma WeekRangeAtMostOne(floor: (Bucketing, int) -> int, startTime: int, endTime: int)
    ensures |Range(RangeBound(StartOfWeek, floor, startTime), RangeBound(StartOfWeek, floor, endTime),
                   Width(StartOfWeek))| <= 1
  {
  }
}

=== FILE: canvas.dfy ===
/** The canvas-recording URL list (`get_canvas_presigned_urls` in
    api/chalicelib/core/canvas.py): the session's recordings in timestamp
    order, followed by one presigned URL per recording.

    The database, the environment and the storage signer are parameters:
    the table's rows, the settings as a string map, the `int` cast decouple
    applies to a setting, and the signer as a function of bucket, expiry and
    row. */
module CanvasUrls {
  import opened Wrappers
  import opened Seqs
  import opened Ranking

  /** A row of `events.canvas_recordings`. */
  datatype Recording = Recording(sessionId: int, timestamp: int, fileKey: string)

  /** An entry of the returned list: a fetched row or a URL. */
  datatype Entry = Fetched(row: Recording) | SignedUrl(url: string)

  /** decouple's `UndefinedValueError` and the `ValueError` of its cast. */
  datatype ConfigError = MissingSetting(name: string) | NotAnInt(name: string)

  type Signer = (string, int, Recording) -> string

  const DefaultExpiry := 900

  function TimestampKey(r: Recording): Option<real> {
    Some(r.timestamp as real)
  }

  /** `SELECT * ... WHERE session_id = %(session_id)s ORDER BY timestamp`:
      the session's rows in ascending timestamp order. */
  function FetchRecordings(table: seq<Recording>, sessionId: int): (r: seq<Recording>)
    ensures SortedBy(r, TimestampKey, true)
    ensures multiset(r) == multiset(Filter(table, (x: Recording) => x.sessionId == sessionId))
  {
    SortBy(Filter(table, (x: Recording) => x.sessionId == sessionId), TimestampKey, true)
  }

  /** Every fetched row is a recording of the session, and every recording
      of the session is fetched. */
  lemma FetchedRowsOfSession(table: seq<Recording>, sessionId: int)
    ensures forall x :: x in FetchRecordings(table, sessionId) <==> x in table && x.sessionId == sessionId
  {
    var rows := Filter(table, (x: Recording) => x.sessionId == sessionId);
    var r := FetchRecordings(table, sessionId);
    forall x ensures x in r <==> x in rows {
      assert x in r <==> x in multiset(r);
      assert x in rows <==> x in multiset(rows);
    }
  }

  /** `config("CANVAS_BUCKET", default=config("sessions_bucket"))`. Python
      evaluates the default first, so `sessions_bucket` must be set even
      when `CANVAS_BUCKET` is. */
  function Bucket(env: map<string, string>): (r: Result<string, ConfigError>)
    ensures r.Failure? <==> "sessions_bucket" !in env
    ensures r.Failure? ==> r.error == MissingSetting("sessions_bucket")
    ensures r.Success? && "CANVAS_BUCKET" in env ==> r.value == env["CANVAS_BUCKET"]
    ensures r.Success? && "CANVAS_BUCKET" !in env ==> r.value == env["sessions_bucket"]
  {
    if "sessions_bucket" !in env then Failure(MissingSetting("sessions_bucket"))
    else if "CANVAS_BUCKET" in env then Success(env["CANVAS_BUCKET"])
    else Success(env["sessions_bucket"])
  }

  /** `config("PRESIGNED_URL_EXPIRATION", cast=int, default=900)`. */
  function Expiry(env: map<string, string>, castInt: string -> Option<int>): (r: Result<int, ConfigError>)
    ensures "PRESIGNED_URL_EXPIRATION" !in env ==> r == Success(DefaultExpiry)
    ensures "PRESIGNED_URL_EXPIRATION" in env ==>
              (r.Success? <==> castInt(env["PRESIGNED_URL_EXPIRATION"]).Some?)
    ensures r.Success? && "PRESIGNED_URL_EXPIRATION" in env ==>
              r.value == castInt(env["PRESIGNED_URL_EXPIRATION"]).value
    ensures r.Failure? ==> r.error == NotAnInt("PRESIGNED_URL_EXPIRATION")
  {
    if "PRESIGNED_URL_EXPIRATION" !in env then Success(DefaultExpiry)
    else match castInt(env["PRESIGNED_URL_EXPIRATION"])
      case None => Failure(NotAnInt("PRESIGNED_URL_EXPIRATION"))
      case Some(n) => Success(n)
  }

  /** The settings every signer call reads, in the order Python evaluates
      the keyword arguments. */
  function Settings(env: map<string, string>, castInt: string -> Option<int>): (r: Result<(string, int), ConfigError>)
    ensures r.Success? <==> Bucket(env).Success? && Expiry(env, castInt).Success?
    ensures Bucket(env).Failure? ==> r == Failure(MissingSetting("sessions_bucket"))
    ensures Bucket(env).Success? && Expiry(env, castInt).Failure? ==> r == Failure(NotAnInt("PRESIGNED_URL_EXPIRATION"))
    ensures r.Success? ==> r.value.0 == Bucket(env).value && r.value.1 == Expiry(env, castInt).value
  {
    var bucket :- Bucket(env);
    var expiry :- Expiry(env, castInt);
    Success((bucket, expiry))
  }

  /** The list the function returns when the settings resolve: the rows
      unchanged, then their URLs in the same order. */
  function Expected(rows: seq<Recording>, bucket: string, expiry: int, sign: Signer): (r: seq<Entry>)
    ensures |r| == 2 * |rows|
    ensures forall i :: 0 <= i < |rows| ==>
              r[i] == Fetched(rows[i]) && r[|rows| + i] == SignedUrl(sign(bucket, expiry, rows[i]))
  {
    Map(rows, (x: Recording) => Fetched(x)) + Map(rows, (x: Recording) => SignedUrl(sign(bucket, expiry, x)))
  }

  /** The loop of `get_canvas_presigned_urls`. Its bound is the row count
      taken before the loop, so the URLs appended during the loop are never
      visited; a setting that does not resolve fails on the first
      iteration, and so only when there are rows. */
  method AppendUrls(fetched: seq<Recording>, env: map<string, string>,
                    castInt: string -> Option<int>, sign: Signer)
    returns (r: Result<seq<Entry>, ConfigError>)
    ensures r.Failure? <==> |fetched| > 0 && Settings(env, castInt).Failure?
    ensures r.Failure? ==> r.error == Settings(env, castInt).error
    ensures r.Success? && |fetched| > 0 ==>
              r.value == Expected(fetched, Settings(env, castInt).value.0, Settings(env, castInt).value.1, sign)
    ensures r.Success? && |fetched| == 0 ==> r.value == []
  {
    var rows: seq<Entry> := Map(fetched, (x: Recording) => Fetched(x));
    var n := |rows|;
    ghost var settings := Settings(env, castInt);
    for i := 0 to n
      invariant |rows| == n + i
      invariant rows[..n] == Map(fetched, (x: Recording) => Fetched(x))
      invariant i > 0 ==> settings.Success?
      invariant forall j :: 0 <= j < i ==>
                  rows[n + j] == SignedUrl(sign(settings.value.0, settings.value.1, fetched[j]))
    {
      var bucket :- Bucket(env);
      var expiry :- Expiry(env, castInt);
      assert settings == Success((bucket, expiry));
      assert rows[i] == rows[..n][i];
      rows := rows + [SignedUrl(sign(bucket, expiry, rows[i].row))];
    }
    if n > 0 {
      assert rows == Expected(fetched, settings.value.0, settings.value.1, sign) by {
        assert rows == rows[..n] + rows[n..];
      }
    }
    return Success(rows);
  }

  /** `get_canvas_presigned_urls`: the session's recordings, then their
      URLs. The project id is accepted and never used. */
  method PresignedUrls(table: seq<Recording>, sessionId: int, projectId: int,
                       env: map<string, string>, castInt: string -> Option<int>, sign: Signer)
    returns (r: Result<seq<Entry>, ConfigError>)
    ensures r.Failure? <==> |FetchRecordings(table, sessionId)| > 0 && Settings(env, castInt).Failure?
    ensures r.Failure? ==> r.error == Settings(env, castInt).error
    ensures r.Success? && |FetchRecordings(table, sessionId)| > 0 ==>
              r.value == Expected(FetchRecordings(table, sessionId), Settings(env, castInt).value.0, Settings(env, castInt).value.1, sign)
    ensures r.Success? && |FetchRecordings(table, sessionId)| == 0 ==> r.value == []
  {
    var fetched := FetchRecordings(table, sessionId);
    r := AppendUrls(fetched, env, castInt, sign);
  }

  /** The session's recordings do not depend on the project: two calls
      that differ only in the project id return the same thing. This is a
      method, not a lemma, because `PresignedUrls` is a method and a lemma
      cannot call one; it runs both calls and returns whether they agree,
      and its contract says they always do. */
  method ProjectIgnored(table: seq<Recording>, sessionId: int, p1: int, p2: int,
                        env: map<string, string>, castInt: string -> Option<int>, sign: Signer)
    returns (same: bool)
    ensures same
  {
    var a := PresignedUrls(table, sessionId, p1, env, castInt, sign);
    var b := PresignedUrls(table, sessionId, p2, env, castInt, sign);
    same := a == b;
  }
}

=== FILE: errors.dfy ===
/** The error comparator, `query_most_errors_by_period`: each current
    error's share of the current bucket's sessions, the increase of every
    error seen in both buckets, the errors that are new, and the raw
    result table. */
module ErrorInsights {
  import opened Wrappers
  import opened Seqs
  import opened Stats
  import opened BucketedQuery
  import opened Periods
  import opened TimeStep
  import opened Buckets

  /** The columns of an `ERROR` event that the query reads. */
  datatype ErrorEvent = ErrorEvent(sessionId: int, datetime: int, name: string, source: string)

  /** One row of the query result. */
  datatype ErrorRow = ErrorRow(hh: int, names: Name, sessions: nat, sources: set<string>)

  /** The four values the comparator returns, in order. */
  datatype ErrorReport = ErrorReport(
    percentages: seq<(Name, Option<real>)>,
    increases: seq<(Name, int)>,
    newErrors: seq<Name>,
    table: seq<ErrorRow>)

  /** `count(session_id)` and `groupUniqArray(source)` of one group. */
  function Aggregate(g: Group<ErrorEvent>): (r: ErrorRow)
    ensures r.hh == g.hh && r.names == g.name && r.sessions == |g.members|
    ensures forall s :: s in r.sources <==> exists k :: 0 <= k < |g.members| && g.members[k].source == s
  {
    ErrorRow(g.hh, g.name, |g.members|, set k | 0 <= k < |g.members| :: g.members[k].source)
  }

  /** The bucket column of a row. */
  function Hh(r: ErrorRow): int {
    r.hh
  }

  function Names(rows: seq<ErrorRow>): seq<Name> {
    Map(rows, (r: ErrorRow) => r.names)
  }

  /** `df['sessions'].sum()`. */
  function SessionSum(rows: seq<ErrorRow>): (r: nat)
    ensures forall i :: 0 <= i < |rows| ==> rows[i].sessions <= r
  {
    if |rows| == 0 then 0 else rows[0].sessions + SessionSum(rows[1..])
  }

  /** `df[df['names'] == n]['sessions'].sum()`. A NULL key selects no row,
      so its sum is zero. */
  function SessionsFor(rows: seq<ErrorRow>, n: Name): (r: nat)
    ensures r <= SessionSum(rows)
    ensures n.None? ==> r == 0
  {
    if |rows| == 0 then 0
    else (if Selects(rows[0].names, n) then rows[0].sessions else 0) + SessionsFor(rows[1..], n)
  }

  /** The sessions of the rows with a NULL name, which no key selects. */
  function NullSessions(rows: seq<ErrorRow>): nat {
    if |rows| == 0 then 0
    else (if rows[0].names.None? then rows[0].sessions else 0) + NullSessions(rows[1..])
  }

  /** Every row with a NULL name has no sessions: true of the gap rows the
      left join produces. */
  predicate NullRowsEmpty(rows: seq<ErrorRow>) {
    forall i :: 0 <= i < |rows| && rows[i].names.None? ==> rows[i].sessions == 0
  }

  /** The `percentage_errors` dictionary, one entry per name of `names`. */
  function Percentages(names: seq<Name>, current: seq<ErrorRow>, total: nat): (r: seq<(Name, Option<real>)>)
    ensures |r| == |names|
    ensures forall i :: 0 <= i < |r| ==> r[i].0 == names[i]
    ensures forall i :: 0 <= i < |r| ==> (r[i].1.Some? <==> total != 0)
  {
    if |names| == 0 then []
    else [(names[0], Share(SessionsFor(current, names[0]), total))] + Percentages(names[1..], current, total)
  }

  /** The `error_increase` dictionary, one entry per common name. */
  function Increases(common: seq<Name>, current: seq<ErrorRow>, previous: seq<ErrorRow>): (r: seq<(Name, int)>)
    ensures |r| == |common|
    ensures forall i :: 0 <= i < |r| ==> r[i].0 == common[i]
  {
    if |common| == 0 then []
    else [(common[0], SessionsFor(current, common[0]) - SessionsFor(previous, common[0]))]
         + Increases(common[1..], current, previous)
  }

  /** The total of the shares; NaN shares count as nothing. */
  function ShareSum(entries: seq<(Name, Option<real>)>): real {
    if |entries| == 0 then 0.0
    else (if entries[0].1.Some? then entries[0].1.value else 0.0) + ShareSum(entries[1..])
  }

  /** The four values computed from the current and the previous bucket's
      rows: one share per current error, each its part of the current
      sessions, and the shares adding up to the named rows' part of the
      sessions, which is one when NULL rows hold none; one increase per error seen
      in both buckets; the errors seen only now; the raw table. */
  function Report(current: seq<ErrorRow>, previous: seq<ErrorRow>, rows: seq<ErrorRow>): (report: ErrorReport)
    ensures var total := SessionSum(current);
      && (forall n :: n in Map(report.percentages, (e: (Name, Option<real>)) => e.0) <==> n in Names(current))
      && NoDup(Map(report.percentages, (e: (Name, Option<real>)) => e.0))
      && (forall i :: 0 <= i < |report.percentages| ==>
            report.percentages[i].1 == Share(SessionsFor(current, report.percentages[i].0), total))
      && (total > 0 ==> ShareSum(report.percentages) == ((total - NullSessions(current)) as real) / (total as real))
      && (total > 0 && NullRowsEmpty(current) ==> ShareSum(report.percentages) == 1.0)
    ensures
      && (forall n :: n in Map(report.increases, (e: (Name, int)) => e.0) <==> n in Names(current) && n in Names(previous))
      && NoDup(Map(report.increases, (e: (Name, int)) => e.0))
      && (forall i :: 0 <= i < |report.increases| ==>
            report.increases[i].1 == SessionsFor(current, report.increases[i].0) - SessionsFor(previous, report.increases[i].0))
    ensures (forall n :: n in report.newErrors <==> n in Names(current) && n !in Names(previous))
    ensures NoDup(report.newErrors)
    ensures report.table == rows
  {
    var lastPeriod := Unique(Names(previous));
    var thisPeriod := Unique(Names(current));
    var split := SplitNames(thisPeriod, lastPeriod);
    var total := SessionSum(current);
    var percentages := Percentages(thisPeriod, current, total);
    var increases := Increases(split.common, current, previous);
    PercentageValues(thisPeriod, current, total);
    IncreaseValues(split.common, current, previous);
    assert Map(percentages, (e: (Name, Option<real>)) => e.0) == thisPeriod;
    assert Map(increases, (e: (Name, int)) => e.0) == split.common;
    ShareTotals(current);
    ErrorReport(percentages, increases, split.newNames, rows)
  }

  /** The delta logic of `query_most_errors_by_period` on the query result:
      the report on the current and the previous bucket, or the period
      error. */
  function Compare(rows: seq<ErrorRow>): (r: Result<ErrorReport, PeriodError>)
    ensures r.Success? <==> SelectPeriods(Map(rows, Hh)).Success?
    ensures r.Success? ==>
      r.value == Report(Slice(rows, Hh, SelectPeriods(Map(rows, Hh)).value.0),
                        Slice(rows, Hh, SelectPeriods(Map(rows, Hh)).value.1), rows)
    ensures r.Success? && NullRowsEmpty(rows) && SessionSum(Slice(rows, Hh, SelectPeriods(Map(rows, Hh)).value.0)) > 0 ==>
              ShareSum(r.value.percentages) == 1.0
  {
    var periods :- SelectPeriods(Map(rows, Hh));
    SliceNullRowsEmpty(rows, periods.0);
    Success(Report(Slice(rows, Hh, periods.0),
                   Slice(rows, Hh, periods.1), rows))
  }

  /** A bucket's rows keep the property that NULL rows are empty. */
  lemma SliceNullRowsEmpty(rows: seq<ErrorRow>, t: int)
    ensures NullRowsEmpty(rows) ==> NullRowsEmpty(Slice(rows, Hh, t))
  {
    var s := Slice(rows, Hh, t);
    if NullRowsEmpty(rows) {
      forall i | 0 <= i < |s| && s[i].names.None? ensures s[i].sessions == 0 {
        var x := s[i];
        assert x in s;
        assert x in rows;
        var j :| 0 <= j < |rows| && rows[j] == x;
      }
    }
  }

  lemma {:induction false} PercentageValues(names: seq<Name>, current: seq<ErrorRow>, total: nat)
    ensures forall i :: 0 <= i < |names| ==>
              Percentages(names, current, total)[i].1 == Share(SessionsFor(current, names[i]), total)
  {
    if |names| > 0 {
      PercentageValues(names[1..], current, total);
    }
  }

  lemma {:induction false} IncreaseValues(common: seq<Name>, current: seq<ErrorRow>, previous: seq<ErrorRow>)
    ensures forall i :: 0 <= i < |common| ==>
              Increases(common, current, previous)[i].1
              == SessionsFor(current, common[i]) - SessionsFor(previous, common[i])
  {
    if |common| > 0 {
      IncreaseValues(common[1..], current, previous);
    }
  }

  /** The sessions of `rows` counted name by name over `names`. */
  function SumOverNames(names: seq<Name>, rows: seq<ErrorRow>): nat {
    if |names| == 0 then 0 else SessionsFor(rows, names[0]) + SumOverNames(names[1..], rows)
  }

  /** The part of one row that the names of `names` count. */
  function RowOverNames(names: seq<Name>, r: ErrorRow): nat {
    if |names| == 0 then 0
    else (if Selects(r.names, names[0]) then r.sessions else 0) + RowOverNames(names[1..], r)
  }

  lemma {:induction false} SumOverNamesStep(names: seq<Name>, rows: seq<ErrorRow>)
    requires |rows| > 0
    ensures SumOverNames(names, rows) == RowOverNames(names, rows[0]) + SumOverNames(names, rows[1..])
  {
    if |names| > 0 {
      SumOverNamesStep(names[1..], rows);
    }
  }

  /** A row whose name occurs once in `names` is counted exactly once,
      unless that name is NULL. */
  lemma {:induction false} RowCountedOnce(names: seq<Name>, r: ErrorRow)
    requires NoDup(names) && r.names in names
    ensures RowOverNames(names, r) == if r.names.Some? then r.sessions else 0
  {
    if names[0] == r.names {
      RowCountedNever(names[1..], r);
    } else {
      assert NoDup(names[1..]);
      RowCountedOnce(names[1..], r);
    }
  }

  lemma {:induction false} RowCountedNever(names: seq<Name>, r: ErrorRow)
    requires r.names !in names
    ensures RowOverNames(names, r) == 0
  {
    if |names| > 0 {
      RowCountedNever(names[1..], r);
    }
  }

  /** Counting name by name over distinct names that cover every row gives
      the total less the NULL rows' sessions: the per-name sums and the NULL
      rows partition the session count. */
  lemma {:induction false} NamesPartitionSessions(names: seq<Name>, rows: seq<ErrorRow>)
    requires NoDup(names)
    requires forall i :: 0 <= i < |rows| ==> rows[i].names in names
    ensures SumOverNames(names, rows) + NullSessions(rows) == SessionSum(rows)
  {
    if |rows| > 0 {
      SumOverNamesStep(names, rows);
      RowCountedOnce(names, rows[0]);
      NamesPartitionSessions(names, rows[1..]);
      assert SumOverNames(names, rows) + NullSessions(rows) == rows[0].sessions + SessionSum(rows[1..]);
    } else {
      NothingOverNoRows(names, rows);
    }
  }

  lemma {:induction false} NothingOverNoRows(names: seq<Name>, rows: seq<ErrorRow>)
    requires |rows| == 0
    ensures SumOverNames(names, rows) == 0
  {
    if |names| > 0 {
      NothingOverNoRows(names[1..], rows);
    }
  }

  /** The shares are the per-name sums divided by the total. */
  lemma {:induction false} ShareSumIsQuotient(names: seq<Name>, current: seq<ErrorRow>, total: nat)
    requires total > 0
    ensures ShareSum(Percentages(names, current, total)) == (SumOverNames(names, current) as real) / (total as real)
  {
    if |names| > 0 {
      ShareSumIsQuotient(names[1..], current, total);
      AddFractions(SessionsFor(current, names[0]) as real, SumOverNames(names[1..], current) as real, total as real);
    }
  }

  lemma SelfQuotient(t: real)
    requires t != 0.0
    ensures t / t == 1.0
  {
  }

  lemma AddFractions(a: real, b: real, t: real)
    requires t != 0.0
    ensures a / t + b / t == (a + b) / t
  {
  }

  /** When the current bucket has sessions, the shares of its distinct
      errors add up to the part of the sessions that lies in named rows; so
      to one when the NULL rows hold no sessions. */
  lemma SharesSumToOne(names: seq<Name>, current: seq<ErrorRow>)
    requires names == Unique(Names(current))
    ensures SessionSum(current) > 0 ==>
              ShareSum(Percentages(names, current, SessionSum(current)))
              == ((SessionSum(current) - NullSessions(current)) as real) / (SessionSum(current) as real)
    ensures SessionSum(current) > 0 && NullSessions(current) == 0 ==>
              ShareSum(Percentages(names, current, SessionSum(current))) == 1.0
  {
    if SessionSum(current) > 0 {
      forall i | 0 <= i < |current| ensures current[i].names in names {
        assert current[i].names in Names(current) by {
          assert Names(current)[i] == current[i].names;
        }
      }
      NamesPartitionSessions(names, current);
      ShareSumIsQuotient(names, current, SessionSum(current));
      SelfQuotient(SessionSum(current) as real);
    }
  }

  /** The two share sums `Report` promises, for the current bucket's
      distinct errors. */
  lemma ShareTotals(current: seq<ErrorRow>)
    ensures var total := SessionSum(current);
            var shares := Percentages(Unique(Names(current)), current, total);
            && (total > 0 ==> ShareSum(shares) == ((total - NullSessions(current)) as real) / (total as real))
            && (total > 0 && NullRowsEmpty(current) ==> ShareSum(shares) == 1.0)
  {
    SharesSumToOne(Unique(Names(current)), current);
    NoNullSessions(current);
  }

  /** A NULL-named row with sessions counts towards the total but towards
      no share: three NULL sessions and one session of error `a` give
      shares that add up to a quarter. */
  lemma NullRowsLeftOutOfShares()
    ensures var current := [ErrorRow(0, None, 3, {}), ErrorRow(0, Some("a"), 1, {})];
            && SessionsFor(current, None) == 0
            && ShareSum(Report(current, [], current).percentages) == 0.25
  {
    var current := [ErrorRow(0, None, 3, {}), ErrorRow(0, Some("a"), 1, {})];
    assert SessionSum(current) == 4;
    assert NullSessions(current) == 3;
  }

  /** With no sessions in NULL rows, nothing is left out of the shares. */
  lemma {:induction false} NoNullSessions(rows: seq<ErrorRow>)
    ensures NullRowsEmpty(rows) ==> NullSessions(rows) == 0
  {
    if |rows| > 0 && NullRowsEmpty(rows) {
      assert NullRowsEmpty(rows[1..]) by {
        forall i | 0 <= i < |rows[1..]| && rows[1..][i].names.None? ensures rows[1..][i].sessions == 0 {
          assert rows[1..][i] == rows[i + 1];
        }
      }
      NoNullSessions(rows[1..]);
    }
  }

  /** The rows the query returns for bucketing `b` of width `width`; the
      store buckets instants with `floor`, and the range runs between the
      `toUInt32` values of the bucketed bounds. The bucket column holds
      exactly the generated buckets, latest first, so period selection fails
      exactly when the range holds fewer than two buckets and otherwise
      picks its last two. */
  function ErrorRows(b: Bucketing, width: nat, startTime: int, endTime: int,
                     events: seq<ErrorEvent>, floor: (Bucketing, int) -> int): (rows: seq<ErrorRow>)
    requires width > 0
    ensures BucketColumn(rows, Hh, Range(RangeBound(b, floor, startTime), RangeBound(b, floor, endTime), width))
    ensures NullRowsEmpty(rows)
  {
    var buckets := Range(RangeBound(b, floor, startTime), RangeBound(b, floor, endTime), width);
    var dtime := (e: ErrorEvent) => EventBucket(b, floor, e.datetime);
    var dim := (e: ErrorEvent) => e.name;
    RangeStrictlyIncreasing(RangeBound(b, floor, startTime), RangeBound(b, floor, endTime), width);
    AggregatedPeriods(buckets, events, dtime, dim, Aggregate, Hh);
    JoinConsistent(buckets, events, dtime, dim);
    AggregatedJoin(buckets, events, dtime, dim, Aggregate)
  }

  /** `query_most_errors_by_period`: resolve the step, run the query, compare. Every
      step but `hour`, `day` and `week` fails the resolver, the default
      `3600` included; with an accepted step the call fails exactly when the
      range holds fewer than two buckets, and otherwise reports on the last
      two buckets of the range. A `week` range never holds two buckets, so a
      `week` call always fails. The only NULL-named rows are the empty gap
      rows, so the shares of a current bucket with sessions add up to one. */
  function QueryMostErrorsByPeriod(step: StepArg, startTime: int, endTime: int,
                                   events: seq<ErrorEvent>, floor: (Bucketing, int) -> int): (r: Result<ErrorReport, InsightError>)
    ensures Resolve(step).Failure? ==> r == Failure(BadTimeStep(Resolve(step).error))
    ensures step == Text("week") ==> r == Failure(NotEnoughData(InsufficientBuckets))
    ensures Resolve(step).Success? ==>
              var b := Resolve(step).value.0;
              var buckets := Range(RangeBound(b, floor, startTime), RangeBound(b, floor, endTime), Width(b));
              && (r.Success? <==> |buckets| >= 2)
              && (r.Failure? ==> r.error == NotEnoughData(InsufficientBuckets))
              && (r.Success? ==> Compare(ErrorRows(b, Width(b), startTime, endTime, events, floor)) == Success(r.value))
              && (r.Success? ==>
                    var rows := ErrorRows(b, Width(b), startTime, endTime, events, floor);
                    SessionSum(Slice(rows, Hh, SelectPeriods(Map(rows, Hh)).value.0)) > 0 ==> ShareSum(r.value.percentages) == 1.0)
  {
    WeekRangeAtMostOne(floor, startTime, endTime);
    match Resolve(step)
    case Failure(e) => Failure(BadTimeStep(e))
    case Success((b, width)) =>
      match Compare(ErrorRows(b, width, startTime, endTime, events, floor))
      case Failure(p) => Failure(NotEnoughData(p))
      case Success(report) => Success(report)
  }
}

=== FILE: periods.dfy ===
/** The period selection and the name split that the three comparators of
    ee/api/chalicelib/core/sessions_insights.py share: take the two first
    distinct buckets of the result as the current and the previous period,
    select their rows, and split the current period's names into names that
    are new and names common to both periods. */
module Periods {
  import opened Wrappers
  import opened Seqs
  import opened BucketedQuery
  import opened TimeStep

  datatype PeriodError =
    /** `first_ts, second_ts = df['hh'].unique()[:2]` has fewer than two
        values to unpack (or the frame is empty). */
    | InsufficientBuckets

  /** Why a comparator call fails: the time-step assert, or too few buckets. */
  datatype InsightError =
    | BadTimeStep(step: StepError)
    | NotEnoughData(period: PeriodError)

  /** The current and the previous bucket: the first two distinct values of
      the bucket column, in order of appearance. */
  function SelectPeriods(hhs: seq<int>): (r: Result<(int, int), PeriodError>)
    ensures r.Success? <==> exists i, j :: 0 <= i < j < |hhs| && hhs[i] != hhs[j]
    ensures r.Failure? ==> r.error == InsufficientBuckets
    ensures r.Success? ==> r.value.0 == hhs[0]
    ensures r.Success? ==> exists k :: 0 < k < |hhs| && hhs[k] == r.value.1 && hhs[k] != hhs[0]
                                       && forall j :: 0 < j < k ==> hhs[j] == hhs[0]
  {
    var u := Unique(hhs);
    UniqueAtLeastTwo(hhs);
    if |u| < 2 then Failure(InsufficientBuckets)
    else
      assert exists j :: 1 <= j < |hhs| && hhs[j] != hhs[0] by {
        var i, j :| 0 <= i < j < |hhs| && hhs[i] != hhs[j];
        if hhs[i] == hhs[0] { assert hhs[j] != hhs[0]; } else { assert i > 0; }
      }
      var k := FirstChange(hhs, 1);
      UniqueSecond(hhs, k);
      Success((u[0], u[1]))
  }

  /** The first position at or after `k` whose value differs from the
      first value. */
  function FirstChange(s: seq<int>, k: nat): (r: nat)
    requires 0 < k < |s|
    requires forall j :: 0 < j < k ==> s[j] == s[0]
    requires exists j :: k <= j < |s| && s[j] != s[0]
    ensures k <= r < |s| && s[r] != s[0]
    ensures forall j :: 0 < j < r ==> s[j] == s[0]
    decreases |s| - k
  {
    if s[k] != s[0] then k else FirstChange(s, k + 1)
  }

  /** On a bucket column in descending order (`ORDER BY hh DESC`) the current
      period is the largest bucket and the previous period is the largest
      bucket below it. */
  lemma SelectLatestTwo(hhs: seq<int>)
    requires forall i, j :: 0 <= i < j < |hhs| ==> hhs[i] >= hhs[j]
    requires SelectPeriods(hhs).Success?
    ensures var (current, previous) := SelectPeriods(hhs).value;
            && previous < current
            && (forall i :: 0 <= i < |hhs| ==> hhs[i] <= current)
            && (forall i :: 0 <= i < |hhs| && hhs[i] < current ==> hhs[i] <= previous)
  {
    var (current, previous) := SelectPeriods(hhs).value;
    var k :| 0 < k < |hhs| && hhs[k] == previous && hhs[k] != hhs[0]
             && forall j :: 0 < j < k ==> hhs[j] == hhs[0];
    forall i | 0 <= i < |hhs| && hhs[i] < current ensures hhs[i] <= previous {
      if i >= k {
        assert hhs[k] >= hhs[i];
      }
    }
  }

  /** `df[df['hh'] == t]`: the rows of bucket `t`, in their order. */
  function Slice<R(==,!new)>(rows: seq<R>, hh: R -> int, t: int): (r: seq<R>)
    ensures forall x :: x in r <==> x in rows && hh(x) == t
    ensures forall x :: multiset(r)[x] == if hh(x) == t then multiset(rows)[x] else 0
    ensures IsSubsequence(r, rows)
  {
    var p := x => hh(x) == t;
    FilterCount(rows, p);
    Filter(rows, p)
  }

  /** The names of the current period split into `newNames` (absent from the
      previous period) and `common` (present in both). */
  datatype Split<N> = Split(newNames: seq<N>, common: seq<N>)

  /** `new = [x for x in this if x not in last]` and
      `common = [x for x in this if x not in new]`. */
  function SplitNames<N(==,!new)>(current: seq<N>, previous: seq<N>): (r: Split<N>)
    ensures forall x :: x in r.newNames <==> x in current && x !in previous
    ensures forall x :: x in r.common <==> x in current && x in previous
    ensures IsSubsequence(r.newNames, current) && IsSubsequence(r.common, current)
    ensures multiset(r.newNames) + multiset(r.common) == multiset(current)
    ensures NoDup(current) ==> NoDup(r.newNames) && NoDup(r.common)
  {
    var newNames := Filter(current, x => x !in previous);
    var common := Filter(current, x => x !in newNames);
    FilterPartition(current, x => x !in previous, x => x !in newNames);
    Split(newNames, common)
  }

  /** Over the result of the bucketed query the selection succeeds exactly
      when the generated range holds two buckets or more, and it then picks
      the last bucket of the range as the current period and the one before
      it as the previous period, whatever the events. */
  lemma JoinPeriods<E(!new)>(buckets: seq<int>, events: seq<E>, dtime: E -> int, dim: E -> string)
    requires forall i, j :: 0 <= i < j < |buckets| ==> buckets[i] < buckets[j]
    ensures SelectPeriods(BucketColumnOf(Join(buckets, events, dtime, dim))).Success? <==> |buckets| >= 2
    ensures |buckets| >= 2 ==>
              SelectPeriods(BucketColumnOf(Join(buckets, events, dtime, dim))).value
              == (buckets[|buckets| - 1], buckets[|buckets| - 2])
  {
    var hhs := BucketColumnOf(Join(buckets, events, dtime, dim));
    JoinKeepsEveryBucket(buckets, events, dtime, dim);
    JoinDescending(buckets, events, dtime, dim);
    PeriodsOfColumn(hhs, buckets);
  }

  /** The rows the bucketed query returns: every group of the left join,
      aggregated by `agg`. */
  function AggregatedJoin<E(==,!new), R>(buckets: seq<int>, events: seq<E>, dtime: E -> int, dim: E -> string,
                                        agg: Group<E> -> R): seq<R> {
    Map(Join(buckets, events, dtime, dim), agg)
  }

  /** The bucket column of `rows`, read through `hh`, holds exactly the
      values of `buckets`, latest first; so period selection on it fails
      exactly when there are fewer than two buckets and otherwise picks the
      last two. */
  ghost predicate BucketColumn<R>(rows: seq<R>, hh: R -> int, buckets: seq<int>)
  {
    var column := Map(rows, hh);
    && (forall t :: t in column <==> t in buckets)
    && (forall i, j :: 0 <= i < j < |rows| ==> hh(rows[i]) >= hh(rows[j]))
    && (SelectPeriods(column).Success? <==> |buckets| >= 2)
    && (|buckets| >= 2 ==> SelectPeriods(column) == Success((buckets[|buckets| - 1], buckets[|buckets| - 2])))
  }

  /** Whatever a comparator aggregates, as long as each row keeps its
      group's bucket, the rows of the join have the range as their bucket
      column. */
  lemma {:induction false} AggregatedPeriods<E(!new), R>(buckets: seq<int>, events: seq<E>, dtime: E -> int,
                                                         dim: E -> string, agg: Group<E> -> R, hh: R -> int)
    requires forall i, j :: 0 <= i < j < |buckets| ==> buckets[i] < buckets[j]
    requires forall g :: hh(agg(g)) == g.hh
    ensures BucketColumn(AggregatedJoin(buckets, events, dtime, dim, agg), hh, buckets)
  {
    var groups := Join(buckets, events, dtime, dim);
    JoinKeepsEveryBucket(buckets, events, dtime, dim);
    JoinDescending(buckets, events, dtime, dim);
    JoinPeriods(buckets, events, dtime, dim);
    assert Map(AggregatedJoin(buckets, events, dtime, dim, agg), hh) == BucketColumnOf(groups);
  }

  /** A descending column holding exactly the values of an increasing
      bucket sequence yields its last two buckets. */
  lemma PeriodsOfColumn(hhs: seq<int>, buckets: seq<int>)
    requires forall i, j :: 0 <= i < j < |buckets| ==> buckets[i] < buckets[j]
    requires forall i, j :: 0 <= i < j < |hhs| ==> hhs[i] >= hhs[j]
    requires forall t :: t in buckets <==> t in hhs
    ensures SelectPeriods(hhs).Success? <==> |buckets| >= 2
    ensures |buckets| >= 2 ==> SelectPeriods(hhs).value == (buckets[|buckets| - 1], buckets[|buckets| - 2])
  {
    if |buckets| >= 2 {
      ManyBuckets(hhs, buckets);
    } else {
      FewBuckets(hhs, buckets);
    }
  }

  lemma ManyBuckets(hhs: seq<int>, buckets: seq<int>)
    requires |buckets| >= 2
    requires forall i, j :: 0 <= i < j < |buckets| ==> buckets[i] < buckets[j]
    requires forall i, j :: 0 <= i < j < |hhs| ==> hhs[i] >= hhs[j]
    requires forall t :: t in buckets <==> t in hhs
    ensures SelectPeriods(hhs) == Success((buckets[|buckets| - 1], buckets[|buckets| - 2]))
  {
    var n := |buckets|;
    TopIsLast(hhs, buckets);
    assert buckets[n - 2] in buckets;
    var q :| 0 <= q < |hhs| && hhs[q] == buckets[n - 2];
    assert hhs[0] != hhs[q];
    var r := SelectPeriods(hhs);
    assert r.Success?;
    var k :| 0 < k < |hhs| && hhs[k] == r.value.1 && hhs[k] != hhs[0]
             && forall j :: 0 < j < k ==> hhs[j] == hhs[0];
    SecondIsBefore(hhs, buckets, k, q);
  }

  /** The first entry of the column is the last bucket. */
  lemma TopIsLast(hhs: seq<int>, buckets: seq<int>)
    requires |buckets| >= 2
    requires forall i, j :: 0 <= i < j < |buckets| ==> buckets[i] < buckets[j]
    requires forall i, j :: 0 <= i < j < |hhs| ==> hhs[i] >= hhs[j]
    requires forall t :: t in buckets <==> t in hhs
    ensures |hhs| > 0 && hhs[0] == buckets[|buckets| - 1]
  {
    var n := |buckets|;
    assert buckets[n - 1] in buckets;
    var p :| 0 <= p < |hhs| && hhs[p] == buckets[n - 1];
    assert hhs[0] in buckets;
    var a :| 0 <= a < n && buckets[a] == hhs[0];
    IncreasingLe(buckets, a, n - 1);
    DescendingLe(hhs, 0, p);
  }

  /** The first entry that differs from the top is the bucket before the
      last. */
  lemma SecondIsBefore(hhs: seq<int>, buckets: seq<int>, k: int, q: int)
    requires |buckets| >= 2
    requires forall i, j :: 0 <= i < j < |buckets| ==> buckets[i] < buckets[j]
    requires forall i, j :: 0 <= i < j < |hhs| ==> hhs[i] >= hhs[j]
    requires forall t :: t in buckets <==> t in hhs
    requires 0 < k < |hhs| && hhs[0] == buckets[|buckets| - 1] && hhs[k] != hhs[0]
    requires forall j :: 0 < j < k ==> hhs[j] == hhs[0]
    requires 0 <= q < |hhs| && hhs[q] == buckets[|buckets| - 2]
    ensures hhs[k] == buckets[|buckets| - 2]
  {
    var n := |buckets|;
    assert hhs[k] in buckets;
    var b :| 0 <= b < n && buckets[b] == hhs[k];
    IncreasingLe(buckets, b, n - 2);
    IncreasingLe(buckets, n - 2, n - 1);
    DescendingLe(hhs, k, q);
  }

  lemma IncreasingLe(s: seq<int>, a: int, c: int)
    requires forall i, j :: 0 <= i < j < |s| ==> s[i] < s[j]
    requires 0 <= a < |s| && 0 <= c < |s|
    ensures a <= c ==> s[a] <= s[c]
    ensures c < a ==> s[c] < s[a]
  {
  }

  lemma DescendingLe(s: seq<int>, a: int, c: int)
    requires forall i, j :: 0 <= i < j < |s| ==> s[i] >= s[j]
    requires 0 <= a < |s| && 0 <= c < |s|
    ensures a <= c ==> s[c] <= s[a]
  {
  }

  lemma FewBuckets(hhs: seq<int>, buckets: seq<int>)
    requires |buckets| < 2
    requires forall t :: t in buckets <==> t in hhs
    ensures SelectPeriods(hhs).Failure?
  {
    forall i | 0 <= i < |hhs| ensures buckets == [hhs[i]] {
      var t := hhs[i];
      assert t in hhs;
      assert t in buckets;
    }
    if exists i, j :: 0 <= i < j < |hhs| && hhs[i] != hhs[j] {
      var i, j :| 0 <= i < j < |hhs| && hhs[i] != hhs[j];
      assert buckets == [hhs[i]] && buckets == [hhs[j]];
    }
  }
}

=== FILE: ranking.dfy ===
/** `DataFrame.sort_values(by=..., ascending=...)` on a column that may hold
    NaN. Pandas puts NaN after every number in both directions
    (`na_position='last'`), and its default sort is not stable. So the model
    promises sortedness and permutation, not the order of equal keys. */
module Ranking {
  import opened Wrappers

  /** `a` may be placed before `b`. `None` stands for NaN and sorts last. */
  predicate Precedes(a: Option<real>, b: Option<real>, ascending: bool) {
    match (a, b)
    case (Some(x), Some(y)) => if ascending then x <= y else x >= y
    case (Some(_), None) => true
    case (None, Some(_)) => false
    case (None, None) => true
  }

  /** Every pair of positions respects `Precedes` on the key. */
  predicate SortedBy<T>(s: seq<T>, key: T -> Option<real>, ascending: bool) {
    forall i, j :: 0 <= i < j < |s| ==> Precedes(key(s[i]), key(s[j]), ascending)
  }

  /** `Precedes` is a total preorder, so a sorted order always exists. */
  lemma PrecedesTotalPreorder(a: Option<real>, b: Option<real>, c: Option<real>, ascending: bool)
    ensures Precedes(a, a, ascending)
    ensures Precedes(a, b, ascending) || Precedes(b, a, ascending)
    ensures Precedes(a, b, ascending) && Precedes(b, c, ascending) ==> Precedes(a, c, ascending)
  {
  }

  /** Every element of `s` may follow a value with key `k`. */
  predicate LowerBound<T>(k: Option<real>, s: seq<T>, key: T -> Option<real>, ascending: bool) {
    forall j :: 0 <= j < |s| ==> Precedes(k, key(s[j]), ascending)
  }

  lemma SortedCons<T>(x: T, s: seq<T>, key: T -> Option<real>, ascending: bool)
    requires LowerBound(key(x), s, key, ascending) && SortedBy(s, key, ascending)
    ensures SortedBy([x] + s, key, ascending)
  {
    var r := [x] + s;
    forall i, j | 0 <= i < j < |r|
      ensures Precedes(key(r[i]), key(r[j]), ascending)
    {
      if i > 0 {
        assert r[i] == s[i - 1] && r[j] == s[j - 1];
      }
    }
  }

  /** Inserts `x` into an already sorted sequence. */
  function Insert<T>(x: T, s: seq<T>, key: T -> Option<real>, ascending: bool): (r: seq<T>)
    requires SortedBy(s, key, ascending)
    ensures SortedBy(r, key, ascending)
    ensures multiset(r) == multiset(s) + multiset{x}
    ensures |r| == |s| + 1
    decreases |s|, 0
  {
    if |s| == 0 then [x]
    else if Precedes(key(x), key(s[0]), ascending) then
      assert LowerBound(key(x), s, key, ascending) by {
        forall j | 0 <= j < |s| ensures Precedes(key(x), key(s[j]), ascending) {
          PrecedesTotalPreorder(key(x), key(s[0]), key(s[j]), ascending);
        }
      }
      SortedCons(x, s, key, ascending);
      [x] + s
    else
      var tail := Insert(x, s[1..], key, ascending);
      PrecedesTotalPreorder(key(s[0]), key(x), key(x), ascending);
      assert LowerBound(key(s[0]), s[1..], key, ascending);
      InsertLowerBound(key(s[0]), x, s[1..], key, ascending);
      SortedCons(s[0], tail, key, ascending);
      assert s == [s[0]] + s[1..];
      [s[0]] + tail
  }

  /** A lower bound of both `s` and `x` remains one after the insertion. */
  lemma {:induction false} InsertLowerBound<T>(k: Option<real>, x: T, s: seq<T>, key: T -> Option<real>, ascending: bool)
    requires SortedBy(s, key, ascending)
    requires LowerBound(k, s, key, ascending) && Precedes(k, key(x), ascending)
    ensures LowerBound(k, Insert(x, s, key, ascending), key, ascending)
    decreases |s|, 1
  {
    if |s| > 0 && !Precedes(key(x), key(s[0]), ascending) {
      InsertLowerBound(k, x, s[1..], key, ascending);
    }
  }

  /** Sorts by `key`: the result is sorted and is a permutation of `s`. */
  function SortBy<T>(s: seq<T>, key: T -> Option<real>, ascending: bool): (r: seq<T>)
    ensures SortedBy(r, key, ascending)
    ensures multiset(r) == multiset(s)
    ensures |r| == |s|
  {
    if |s| == 0 then []
    else
      assert s == [s[0]] + s[1..];
      Insert(s[0], SortBy(s[1..], key, ascending), key, ascending)
  }
}

=== FILE: requests.dfy ===
/** The request comparator, `query_requests_by_period`: per URL host, how
    the mean duration and the mean success rate moved between the previous
    and the current bucket, which hosts are new, and the current bucket
    ranked by success rate and by duration. */
module RequestInsights {
  import opened Wrappers
  import opened Seqs
  import opened Stats
  import opened Ranking
  import opened BucketedQuery
  import opened Periods
  import opened TimeStep
  import opened Buckets

  /** The columns of a `REQUEST` event that the query reads. NULL
      measurements are `None`. */
  datatype RequestEvent = RequestEvent(
    sessionId: int,
    datetime: int,
    urlHost: string,
    urlPath: string,
    success: Option<real>,
    duration: Option<real>)

  /** One row of the query result. */
  datatype RequestRow = RequestRow(
    hh: int,
    names: Name,
    sessions: nat,
    successRate: Option<real>,
    sources: set<string>,
    avgDuration: Option<real>)

  /** A two-column frame row: a host and a number that may be NaN. */
  type Entry = (Name, Option<real>)

  /** The five values the comparator returns, in order. */
  datatype RequestReport = RequestReport(
    durationIncrease: seq<Entry>,
    successIncrease: seq<Entry>,
    bySuccessRate: seq<Entry>,
    byDuration: seq<Entry>,
    newHosts: seq<Name>)

  /** The aggregates of one (bucket, host) group: `count(session_id)`,
      `avg(success)`, `groupUniqArray(url_path)` and `avg(duration)`. */
  function Aggregate(g: Group<RequestEvent>): (r: RequestRow)
    ensures r.hh == g.hh && r.names == g.name && r.sessions == |g.members|
    ensures r.successRate.Some? <==> exists k :: 0 <= k < |g.members| && g.members[k].success.Some?
    ensures r.avgDuration.Some? <==> exists k :: 0 <= k < |g.members| && g.members[k].duration.Some?
    ensures forall p :: p in r.sources <==> exists k :: 0 <= k < |g.members| && g.members[k].urlPath == p
  {
    var successes := Map(g.members, (e: RequestEvent) => e.success);
    var durations := Map(g.members, (e: RequestEvent) => e.duration);
    RequestRow(
      g.hh, g.name, |g.members|,
      Mean(successes),
      set k | 0 <= k < |g.members| :: g.members[k].urlPath,
      Mean(durations))
  }

  /** The bucket column of a row. */
  function Hh(r: RequestRow): int {
    r.hh
  }

  function Names(rows: seq<RequestRow>): seq<Name> {
    Map(rows, (r: RequestRow) => r.names)
  }

  function Keys(entries: seq<Entry>): seq<Name> {
    Map(entries, (e: Entry) => e.0)
  }

  /** `df[df['names'] == n][col]`: one value for each row of host `n`, and
      only values those rows hold. A NULL key selects no row. */
  function Column(rows: seq<RequestRow>, n: Name, col: RequestRow -> Option<real>): (r: seq<Option<real>>)
    ensures n.Some? ==> |r| == multiset(Names(rows))[n]
    ensures n.None? ==> r == []
    ensures forall v :: v in r <==> exists x :: x in rows && Selects(x.names, n) && col(x) == v
  {
    var named := (r: RequestRow) => Selects(r.names, n);
    NamedRowCount(rows, n);
    MapFilterValues(rows, named, col);
    assert forall x :: named(x) == Selects(x.names, n);
    Map(Filter(rows, named), col)
  }

  /** Host `n` has as many rows as its name has copies in the names column;
      a NULL key has none. */
  lemma {:induction false} NamedRowCount(rows: seq<RequestRow>, n: Name)
    ensures |Filter(rows, (r: RequestRow) => Selects(r.names, n))| == if n.Some? then multiset(Names(rows))[n] else 0
  {
    if |rows| > 0 {
      NamedRowCount(rows[1..], n);
      assert Names(rows) == [rows[0].names] + Names(rows[1..]);
    }
  }

  /** Host `n`'s mean in column `col` is a number exactly when one of its
      rows holds a number there. */
  lemma ColumnMeanDefined(rows: seq<RequestRow>, n: Name, col: RequestRow -> Option<real>)
    ensures Mean(Column(rows, n, col)).Some? <==> exists x :: x in rows && Selects(x.names, n) && col(x).Some?
  {
    var selected := Filter(rows, (r: RequestRow) => Selects(r.names, n));
    var c := Column(rows, n, col);
    assert c == Map(selected, col);
    if Mean(c).Some? {
      var i :| 0 <= i < |c| && c[i].Some?;
      assert selected[i] in selected;
    }
    if exists x :: x in rows && Selects(x.names, n) && col(x).Some? {
      var x :| x in rows && Selects(x.names, n) && col(x).Some?;
      assert x in selected;
      var k :| 0 <= k < |selected| && selected[k] == x;
      assert c[k].Some?;
    }
  }

  /** The change of host `n` in column `col`: its mean in the current rows
      minus its mean in the previous rows. */
  function MeanDelta(current: seq<RequestRow>, previous: seq<RequestRow>, n: Name, col: RequestRow -> Option<real>): (r: Option<real>)
    ensures r.Some? <==> Mean(Column(current, n, col)).Some? && Mean(Column(previous, n, col)).Some?
    ensures r.Some? ==> Mean(Column(previous, n, col)).value + r.value == Mean(Column(current, n, col)).value
  {
    Diff(Mean(Column(current, n, col)), Mean(Column(previous, n, col)))
  }

  /** A host's delta is a number exactly when both periods hold a number
      for the host in that column. */
  lemma MeanDeltaDefined(current: seq<RequestRow>, previous: seq<RequestRow>, n: Name, col: RequestRow -> Option<real>)
    ensures MeanDelta(current, previous, n, col).Some? <==>
              (exists x :: x in current && Selects(x.names, n) && col(x).Some?)
              && (exists x :: x in previous && Selects(x.names, n) && col(x).Some?)
  {
    ColumnMeanDefined(current, n, col);
    ColumnMeanDefined(previous, n, col);
  }

  /** The `delta_*` dictionary: one entry per common host, in the order of
      the common hosts. */
  function Deltas(common: seq<Name>, current: seq<RequestRow>, previous: seq<RequestRow>, col: RequestRow -> Option<real>): (r: seq<Entry>)
    ensures Keys(r) == common
    ensures forall i :: 0 <= i < |r| ==> r[i].1 == MeanDelta(current, previous, r[i].0, col)
  {
    Map(common, (n: Name) => (n, MeanDelta(current, previous, n, col)))
  }

  function Duration(r: RequestRow): Option<real> { r.avgDuration }
  function SuccessRate(r: RequestRow): Option<real> { r.successRate }
  function Value(e: Entry): Option<real> { e.1 }

  /** The delta logic of `query_requests_by_period` on the query result. */
  function Compare(rows: seq<RequestRow>): (r: Result<RequestReport, PeriodError>)
    ensures r.Success? <==> SelectPeriods(Map(rows, Hh)).Success?
    ensures r.Success? ==>
      var current := Slice(rows, Hh, SelectPeriods(Map(rows, Hh)).value.0);
      var previous := Slice(rows, Hh, SelectPeriods(Map(rows, Hh)).value.1);
      var report := r.value;
      // the new hosts: current hosts that the previous period lacks
      && (forall n :: n in report.newHosts <==> n in Names(current) && n !in Names(previous))
      && NoDup(report.newHosts)
      // both delta tables: one entry per common host, each the difference of means
      && (forall n :: n in Keys(report.durationIncrease) <==> n in Names(current) && n in Names(previous))
      && (forall n :: n in Keys(report.successIncrease) <==> n in Names(current) && n in Names(previous))
      && NoDup(Keys(report.durationIncrease)) && NoDup(Keys(report.successIncrease))
      && (forall i :: 0 <= i < |report.durationIncrease| ==>
            report.durationIncrease[i].1 == MeanDelta(current, previous, report.durationIncrease[i].0, Duration))
      && (forall i :: 0 <= i < |report.successIncrease| ==>
            report.successIncrease[i].1 == MeanDelta(current, previous, report.successIncrease[i].0, SuccessRate))
      // the rankings
      && SortedBy(report.durationIncrease, Value, false)
      && SortedBy(report.successIncrease, Value, true)
      && SortedBy(report.bySuccessRate, Value, true)
      && SortedBy(report.byDuration, Value, false)
      && multiset(report.bySuccessRate) == multiset(Map(current, (x: RequestRow) => (x.names, x.successRate)))
      && multiset(report.byDuration) == multiset(Map(current, (x: RequestRow) => (x.names, x.avgDuration)))
  {
    var periods :- SelectPeriods(Map(rows, Hh));
    var current := Slice(rows, Hh, periods.0);
    var previous := Slice(rows, Hh, periods.1);
    var thisPeriod := Unique(Names(current));
    var lastPeriod := Unique(Names(previous));
    var split := SplitNames(thisPeriod, lastPeriod);
    var durationDeltas := Deltas(split.common, current, previous, Duration);
    var successDeltas := Deltas(split.common, current, previous, SuccessRate);
    var durationTable := SortBy(durationDeltas, Value, false);
    var successTable := SortBy(successDeltas, Value, true);
    RankedKeys(durationDeltas, durationTable);
    RankedKeys(successDeltas, successTable);
    RankedValues(durationDeltas, durationTable, current, previous, Duration);
    RankedValues(successDeltas, successTable, current, previous, SuccessRate);
    Success(RequestReport(
      durationTable,
      successTable,
      SortBy(Map(current, (x: RequestRow) => (x.names, x.successRate)), Value, true),
      SortBy(Map(current, (x: RequestRow) => (x.names, x.avgDuration)), Value, false),
      split.newNames))
  }

  /** Sorting a table keeps its set of keys and their distinctness. */
  lemma RankedKeys(table: seq<Entry>, ranked: seq<Entry>)
    requires multiset(ranked) == multiset(table)
    ensures forall n :: n in Keys(ranked) <==> n in Keys(table)
    ensures NoDup(Keys(table)) ==> NoDup(Keys(ranked))
  {
    forall n ensures n in Keys(ranked) <==> n in Keys(table) {
      if n in Keys(ranked) {
        var i :| 0 <= i < |ranked| && ranked[i].0 == n;
        assert ranked[i] in multiset(table);
      }
      if n in Keys(table) {
        var i :| 0 <= i < |table| && table[i].0 == n;
        assert table[i] in multiset(ranked);
      }
    }
    if NoDup(Keys(table)) {
      forall i, j | 0 <= i < j < |ranked| ensures ranked[i].0 != ranked[j].0 {
        assert ranked[i] in multiset(table) && ranked[j] in multiset(table);
        KeyDetermines(table, ranked[i], ranked[j]);
        RepeatedCount(ranked, i, j);
        CountAtMostOne(table, ranked[i]);
      }
    }
  }

  /** In a table with distinct keys an entry is determined by its key. */
  lemma KeyDetermines(table: seq<Entry>, x: Entry, y: Entry)
    requires NoDup(Keys(table)) && x in table && y in table
    ensures x.0 == y.0 ==> x == y
  {
    var a :| 0 <= a < |table| && table[a] == x;
    var b :| 0 <= b < |table| && table[b] == y;
    assert Keys(table)[a] == x.0 && Keys(table)[b] == y.0;
  }

  /** A value at two positions occurs at least twice. */
  lemma RepeatedCount<T>(s: seq<T>, i: nat, j: nat)
    requires i < j < |s|
    ensures s[i] == s[j] ==> multiset(s)[s[i]] >= 2
  {
    assert s == s[..j] + s[j..];
    assert s[i] in multiset(s[..j]);
    assert s[j] in multiset(s[j..]);
  }

  lemma {:induction false} CountAtMostOne(table: seq<Entry>, e: Entry)
    requires NoDup(Keys(table))
    ensures multiset(table)[e] <= 1
  {
    if |table| > 0 {
      assert NoDup(Keys(table[1..])) by {
        assert forall i :: 0 <= i < |table| - 1 ==> Keys(table[1..])[i] == Keys(table)[i + 1];
      }
      CountAtMostOne(table[1..], e);
      assert table == [table[0]] + table[1..];
      if table[0] == e {
        assert e !in table[1..] by {
          forall i | 0 <= i < |table| - 1 ensures table[1..][i] != e {
            assert Keys(table)[i + 1] != Keys(table)[0];
          }
        }
      }
    }
  }

  /** Sorting a table of deltas keeps every entry's value correct. */
  lemma RankedValues(table: seq<Entry>, ranked: seq<Entry>, current: seq<RequestRow>, previous: seq<RequestRow>, col: RequestRow -> Option<real>)
    requires multiset(ranked) == multiset(table)
    requires forall i :: 0 <= i < |table| ==> table[i].1 == MeanDelta(current, previous, table[i].0, col)
    ensures forall i :: 0 <= i < |ranked| ==> ranked[i].1 == MeanDelta(current, previous, ranked[i].0, col)
  {
    forall i | 0 <= i < |ranked| ensures ranked[i].1 == MeanDelta(current, previous, ranked[i].0, col) {
      assert ranked[i] in multiset(table);
    }
  }

  /** A group of one host's rows whose column `col` holds the number `v`
      everywhere has mean `v`; so when both periods hold such rows the delta
      is the plain difference. */
  lemma {:induction false} ConstantColumnDelta(current: seq<RequestRow>, previous: seq<RequestRow>, n: Name, col: RequestRow -> Option<real>, a: real, b: real)
    requires exists x :: x in current && Selects(x.names, n)
    requires exists x :: x in previous && Selects(x.names, n)
    requires forall x :: x in current && Selects(x.names, n) ==> col(x) == Some(a)
    requires forall x :: x in previous && Selects(x.names, n) ==> col(x) == Some(b)
    ensures MeanDelta(current, previous, n, col) == Some(a - b)
  {
    ConstantColumn(current, n, col, a);
    ConstantColumn(previous, n, col, b);
    DeltaOfMeans(current, previous, n, col, a, b);
  }

  lemma DeltaOfMeans(current: seq<RequestRow>, previous: seq<RequestRow>, n: Name, col: RequestRow -> Option<real>, a: real, b: real)
    requires Mean(Column(current, n, col)) == Some(a) && Mean(Column(previous, n, col)) == Some(b)
    ensures MeanDelta(current, previous, n, col) == Some(a - b)
  {
    assert MeanDelta(current, previous, n, col) == Diff(Some(a), Some(b));
  }

  lemma ConstantColumn(rows: seq<RequestRow>, n: Name, col: RequestRow -> Option<real>, v: real)
    requires exists x :: x in rows && Selects(x.names, n)
    requires forall x :: x in rows && Selects(x.names, n) ==> col(x) == Some(v)
    ensures Mean(Column(rows, n, col)) == Some(v)
  {
    var selected := Filter(rows, (r: RequestRow) => Selects(r.names, n));
    var x :| x in rows && Selects(x.names, n);
    assert x in selected;
    forall i | 0 <= i < |selected| ensures Column(rows, n, col)[i] == Some(v) {
      assert selected[i] in selected;
    }
    MeanOfConstant(Column(rows, n, col), v);
  }

  /** The rows the query returns for bucketing `b` of width `width`; the
      store buckets instants with `floor`, and the range runs between the
      `toUInt32` values of the bucketed bounds. The bucket column holds
      exactly the generated buckets, latest first, so period selection fails
      exactly when the range holds fewer than two buckets and otherwise
      picks its last two. */
  function RequestRows(b: Bucketing, width: nat, startTime: int, endTime: int,
                       events: seq<RequestEvent>, floor: (Bucketing, int) -> int): (rows: seq<RequestRow>)
    requires width > 0
    ensures BucketColumn(rows, Hh, Range(RangeBound(b, floor, startTime), RangeBound(b, floor, endTime), width))
  {
    var buckets := Range(RangeBound(b, floor, startTime), RangeBound(b, floor, endTime), width);
    var dtime := (e: RequestEvent) => EventBucket(b, floor, e.datetime);
    var dim := (e: RequestEvent) => e.urlHost;
    RangeStrictlyIncreasing(RangeBound(b, floor, startTime), RangeBound(b, floor, endTime), width);
    AggregatedPeriods(buckets, events, dtime, dim, Aggregate, Hh);
    AggregatedJoin(buckets, events, dtime, dim, Aggregate)
  }

  /** `query_requests_by_period`: resolve the step, run the query, compare. Every
      step but `hour`, `day` and `week` fails the resolver, the default
      `3600` included; with an accepted step the call fails exactly when the
      range holds fewer than two buckets, and otherwise reports on the last
      two buckets of the range. A `week` range never holds two buckets, so a
      `week` call always fails. */
  function QueryRequestsByPeriod(step: StepArg, startTime: int, endTime: int,
                                 events: seq<RequestEvent>, floor: (Bucketing, int) -> int): (r: Result<RequestReport, InsightError>)
    ensures Resolve(step).Failure? ==> r == Failure(BadTimeStep(Resolve(step).error))
    ensures step == Text("week") ==> r == Failure(NotEnoughData(InsufficientBuckets))
    ensures Resolve(step).Success? ==>
              var b := Resolve(step).value.0;
              var buckets := Range(RangeBound(b, floor, startTime), RangeBound(b, floor, endTime), Width(b));
              && (r.Success? <==> |buckets| >= 2)
              && (r.Failure? ==> r.error == NotEnoughData(InsufficientBuckets))
              && (r.Success? ==> Compare(RequestRows(b, Width(b), startTime, endTime, events, floor)) == Success(r.value))
  {
    WeekRangeAtMostOne(floor, startTime, endTime);
    match Resolve(step)
    case Failure(e) => Failure(BadTimeStep(e))
    case Success((b, width)) =>
      match Compare(RequestRows(b, width, startTime, endTime, events, floor))
      case Failure(p) => Failure(NotEnoughData(p))
      case Success(report) => Success(report)
  }
}

=== FILE: resources.dfy ===
/** The resource comparator, `query_cpu_memory_by_period`: how the mean
    CPU use and the mean JS heap size of the current bucket moved from the
    previous bucket. */
module ResourceInsights {
  import opened Wrappers
  import opened Seqs
  import opened Stats
  import opened BucketedQuery
  import opened Periods
  import opened TimeStep
  import opened Buckets

  /** The columns of a `PERFORMANCE` event that the query reads. */
  datatype PerformanceEvent = PerformanceEvent(
    sessionId: int,
    datetime: int,
    urlHost: string,
    urlPath: string,
    avgCpu: Option<real>,
    avgUsedJsHeapSize: Option<real>)

  /** One row of the query result. */
  datatype ResourceRow = ResourceRow(
    hh: int,
    names: Name,
    sessions: nat,
    cpuUsed: Option<real>,
    memoryUsed: Option<real>,
    sources: set<string>)

  /** The dictionary the comparator returns. */
  datatype ResourceReport = ResourceReport(cpuIncrease: Option<real>, memoryIncrease: Option<real>)

  /** `count(session_id)`, `avg(avg_cpu)`, `avg(avg_used_js_heap_size)` and
      `groupUniqArray(url_path)` of one group. */
  function Aggregate(g: Group<PerformanceEvent>): (r: ResourceRow)
    ensures r.hh == g.hh && r.names == g.name && r.sessions == |g.members|
    ensures r.cpuUsed.Some? <==> exists k :: 0 <= k < |g.members| && g.members[k].avgCpu.Some?
    ensures r.memoryUsed.Some? <==> exists k :: 0 <= k < |g.members| && g.members[k].avgUsedJsHeapSize.Some?
    ensures forall p :: p in r.sources <==> exists k :: 0 <= k < |g.members| && g.members[k].urlPath == p
  {
    ResourceRow(
      g.hh, g.name, |g.members|,
      Mean(Map(g.members, (e: PerformanceEvent) => e.avgCpu)),
      Mean(Map(g.members, (e: PerformanceEvent) => e.avgUsedJsHeapSize)),
      set k | 0 <= k < |g.members| :: g.members[k].urlPath)
  }

  /** The bucket column of a row. */
  function Hh(r: ResourceRow): int {
    r.hh
  }

  function Cpu(rows: seq<ResourceRow>): seq<Option<real>> {
    Map(rows, (r: ResourceRow) => r.cpuUsed)
  }

  function Memory(rows: seq<ResourceRow>): seq<Option<real>> {
    Map(rows, (r: ResourceRow) => r.memoryUsed)
  }

  /** How the means moved from the `previous` rows to the `current` rows:
      the CPU increase is the difference of the means, the memory increase
      the change of the mean relative to the previous mean, left undefined
      when that mean is zero or NaN. */
  function Movement(current: seq<ResourceRow>, previous: seq<ResourceRow>): (r: ResourceReport)
    ensures var c1, c2 := Mean(Cpu(current)), Mean(Cpu(previous));
            && (r.cpuIncrease.Some? <==> c1.Some? && c2.Some?)
            && (r.cpuIncrease.Some? ==> c2.value + r.cpuIncrease.value == c1.value)
    ensures var m1, m2 := Mean(Memory(current)), Mean(Memory(previous));
            && (r.memoryIncrease.Some? <==> m1.Some? && m2.Some? && m2.value != 0.0)
            && (r.memoryIncrease.Some? ==> m2.value * (1.0 + r.memoryIncrease.value) == m1.value)
  {
    ResourceReport(
      Diff(Mean(Cpu(current)), Mean(Cpu(previous))),
      RelativeChange(Mean(Memory(current)), Mean(Memory(previous))))
  }

  /** The delta logic of `query_cpu_memory_by_period` on the query result:
      the movement from the previous bucket's rows to the current bucket's
      rows, or the period error. */
  function Compare(rows: seq<ResourceRow>): (r: Result<ResourceReport, PeriodError>)
    ensures r.Success? <==> SelectPeriods(Map(rows, Hh)).Success?
    ensures r.Success? ==>
      r.value == Movement(Slice(rows, Hh, SelectPeriods(Map(rows, Hh)).value.0),
                          Slice(rows, Hh, SelectPeriods(Map(rows, Hh)).value.1))
  {
    var periods :- SelectPeriods(Map(rows, Hh));
    Success(Movement(Slice(rows, Hh, periods.0),
                     Slice(rows, Hh, periods.1)))
  }

  /** When every current and every previous row reports the same CPU mean
      and the same heap mean, the CPU increase is the difference and the
      memory increase the relative change of those values. */
  lemma {:induction false} ConstantMeans(current: seq<ResourceRow>, previous: seq<ResourceRow>,
                                         c1: real, c2: real, m1: real, m2: real)
    requires |current| > 0 && |previous| > 0 && m2 != 0.0
    requires forall i :: 0 <= i < |current| ==> current[i].cpuUsed == Some(c1) && current[i].memoryUsed == Some(m1)
    requires forall i :: 0 <= i < |previous| ==> previous[i].cpuUsed == Some(c2) && previous[i].memoryUsed == Some(m2)
    ensures Movement(current, previous) == ResourceReport(Some(c1 - c2), Some((m1 - m2) / m2))
  {
    MeanOfConstant(Cpu(current), c1);
    MeanOfConstant(Cpu(previous), c2);
    MeanOfConstant(Memory(current), m1);
    MeanOfConstant(Memory(previous), m2);
  }

  /** The rows the query returns for bucketing `b` of width `width`; the
      store buckets instants with `floor`, and the range runs between the
      `toUInt32` values of the bucketed bounds. The bucket column holds
      exactly the generated buckets, latest first, so period selection fails
      exactly when the range holds fewer than two buckets and otherwise
      picks its last two. */
  function ResourceRows(b: Bucketing, width: nat, startTime: int, endTime: int,
                        events: seq<PerformanceEvent>, floor: (Bucketing, int) -> int): (rows: seq<ResourceRow>)
    requires width > 0
    ensures BucketColumn(rows, Hh, Range(RangeBound(b, floor, startTime), RangeBound(b, floor, endTime), width))
  {
    var buckets := Range(RangeBound(b, floor, startTime), RangeBound(b, floor, endTime), width);
    var dtime := (e: PerformanceEvent) => EventBucket(b, floor, e.datetime);
    var dim := (e: PerformanceEvent) => e.urlHost;
    RangeStrictlyIncreasing(RangeBound(b, floor, startTime), RangeBound(b, floor, endTime), width);
    AggregatedPeriods(buckets, events, dtime, dim, Aggregate, Hh);
    AggregatedJoin(buckets, events, dtime, dim, Aggregate)
  }

  /** `query_cpu_memory_by_period`: resolve the step, run the query, compare. Every
      step but `hour`, `day` and `week` fails the resolver, the default
      `3600` included; with an accepted step the call fails exactly when the
      range holds fewer than two buckets, and otherwise reports on the last
      two buckets of the range. A `week` range never holds two buckets, so a
      `week` call always fails. */
  function QueryCpuMemoryByPeriod(step: StepArg, startTime: int, endTime: int,
                                  events: seq<PerformanceEvent>, floor: (Bucketing, int) -> int): (r: Result<ResourceReport, InsightError>)
    ensures Resolve(step).Failure? ==> r == Failure(BadTimeStep(Resolve(step).error))
    ensures step == Text("week") ==> r == Failure(NotEnoughData(InsufficientBuckets))
    ensures Resolve(step).Success? ==>
              var b := Resolve(step).value.0;
              var buckets := Range(RangeBound(b, floor, startTime), RangeBound(b, floor, endTime), Width(b));
              && (r.Success? <==> |buckets| >= 2)
              && (r.Failure? ==> r.error == NotEnoughData(InsufficientBuckets))
              && (r.Success? ==> Compare(ResourceRows(b, Width(b), startTime, endTime, events, floor)) == Success(r.value))
  {
    WeekRangeAtMostOne(floor, startTime, endTime);
    match Resolve(step)
    case Failure(e) => Failure(BadTimeStep(e))
    case Success((b, width)) =>
      match Compare(ResourceRows(b, width, startTime, endTime, events, floor))
      case Failure(p) => Failure(NotEnoughData(p))
      case Success(report) => Success(report)
  }
}

=== FILE: seqs.dfy ===
/** Sequence helpers that model the dataframe primitives the analytics code
    relies on: boolean-mask selection (`df[df[c] == v]`), `Series.unique()`
    and column projection. */
module Seqs {

  /** Applies `f` to every element, keeping positions. */
  function Map<A, B>(s: seq<A>, f: A -> B): (r: seq<B>)
    ensures |r| == |s|
    ensures forall i :: 0 <= i < |s| ==> r[i] == f(s[i])
  {
    seq(|s|, i requires 0 <= i < |s| => f(s[i]))
  }

  /** No element occurs twice. */
  predicate NoDup<T(==)>(s: seq<T>) {
    forall i, j :: 0 <= i < j < |s| ==> s[i] != s[j]
  }

  /** `a` can be obtained from `b` by deleting elements, so `a` keeps the
      relative order of `b`. */
  predicate IsSubsequence<T(==)>(a: seq<T>, b: seq<T>)
    decreases |b|
  {
    |a| == 0
    || (|b| > 0
        && ((a[0] == b[0] && IsSubsequence(a[1..], b[1..])) || IsSubsequence(a, b[1..])))
  }

  /** Boolean-mask selection: the elements satisfying `p`, in their original
      order. */
  function Filter<T(==,!new)>(s: seq<T>, p: T -> bool): (r: seq<T>)
    ensures |r| <= |s|
    ensures forall x :: x in r <==> x in s && p(x)
    ensures IsSubsequence(r, s)
    ensures NoDup(s) ==> NoDup(r)
  {
    if |s| == 0 then []
    else if p(s[0]) then [s[0]] + Filter(s[1..], p)
    else Filter(s[1..], p)
  }

  /** The values `f` takes on the elements that satisfy `p`. */
  lemma MapFilterValues<A(!new), B>(s: seq<A>, p: A -> bool, f: A -> B)
    ensures forall v :: v in Map(Filter(s, p), f) <==> exists x :: x in s && p(x) && f(x) == v
  {
    var selected := Filter(s, p);
    var c := Map(selected, f);
    forall v ensures v in c <==> exists x :: x in s && p(x) && f(x) == v {
      if v in c {
        var i :| 0 <= i < |c| && c[i] == v;
        assert selected[i] in selected;
      }
      if exists x :: x in s && p(x) && f(x) == v {
        var x :| x in s && p(x) && f(x) == v;
        assert x in selected;
        var k :| 0 <= k < |selected| && selected[k] == x;
        assert c[k] == v;
      }
    }
  }

  /** Selecting by `p` and by its negation `q` splits the elements between the
      two results: nothing is lost and nothing is duplicated. */
  lemma FilterPartition<T(!new)>(s: seq<T>, p: T -> bool, q: T -> bool)
    requires forall i :: 0 <= i < |s| ==> q(s[i]) == !p(s[i])
    ensures multiset(Filter(s, p)) + multiset(Filter(s, q)) == multiset(s)
  {
    forall x ensures (multiset(Filter(s, p)) + multiset(Filter(s, q)))[x] == multiset(s)[x] {
      FilterCountOf(s, p, x);
      FilterCountOf(s, q, x);
      if x in s {
        var i :| 0 <= i < |s| && s[i] == x;
        assert q(s[i]) == !p(s[i]);
      }
    }
  }

  /** One step of `Filter`, in multisets. */
  lemma FilterStep<T(!new)>(s: seq<T>, p: T -> bool)
    requires |s| > 0
    ensures multiset(Filter(s, p)) == (if p(s[0]) then multiset{s[0]} else multiset{}) + multiset(Filter(s[1..], p))
  {
    if p(s[0]) {
      assert Filter(s, p) == [s[0]] + Filter(s[1..], p);
    }
  }

  /** Selection keeps every copy of a selected element and drops every copy
      of the others. */
  lemma FilterCount<T(!new)>(s: seq<T>, p: T -> bool)
    ensures forall x :: multiset(Filter(s, p))[x] == if p(x) then multiset(s)[x] else 0
  {
    forall x ensures multiset(Filter(s, p))[x] == if p(x) then multiset(s)[x] else 0 {
      FilterCountOf(s, p, x);
    }
  }

  lemma {:induction false} FilterCountOf<T(!new)>(s: seq<T>, p: T -> bool, x: T)
    ensures multiset(Filter(s, p))[x] == if p(x) then multiset(s)[x] else 0
  {
    if |s| > 0 {
      var t := s[1..];
      FilterCountOf(t, p, x);
      FilterStep(s, p);
      assert s == [s[0]] + t;
      assert multiset(s)[x] == multiset{s[0]}[x] + multiset(t)[x];
    }
  }

  /** The position where `x` first occurs in `s`. */
  function FirstIndex<T(==)>(s: seq<T>, x: T): (k: nat)
    requires x in s
    ensures k < |s| && s[k] == x && x !in s[..k]
  {
    if s[0] == x then 0
    else
      assert x in s[1..] by { var i :| 0 <= i < |s| && s[i] == x; assert s[1..][i - 1] == x; }
      var k := FirstIndex(s[1..], x);
      assert s[..k + 1] == [s[0]] + s[1..][..k];
      k + 1
  }

  /** Selection keeps the order in which the selected values first occur. */
  lemma {:induction false} FilterKeepsFirstOrder<T(!new)>(s: seq<T>, p: T -> bool, x: T, y: T)
    requires x in Filter(s, p) && y in Filter(s, p)
    requires FirstIndex(Filter(s, p), x) < FirstIndex(Filter(s, p), y)
    ensures FirstIndex(s, x) < FirstIndex(s, y)
  {
    var f, t := Filter(s, p), Filter(s[1..], p);
    if p(s[0]) {
      assert f == [s[0]] + t;
      if x != s[0] {
        assert y != s[0];
        assert x in t && y in t;
        assert FirstIndex(f, x) == FirstIndex(t, x) + 1;
        assert FirstIndex(f, y) == FirstIndex(t, y) + 1;
        FilterKeepsFirstOrder(s[1..], p, x, y);
      }
    } else {
      assert f == t;
      assert x != s[0] && y != s[0];
      FilterKeepsFirstOrder(s[1..], p, x, y);
    }
  }

  /** `Series.unique()`: every distinct value once, in order of first
      appearance. */
  function Unique<T(==,!new)>(s: seq<T>): (r: seq<T>)
    ensures forall x :: x in r <==> x in s
    ensures NoDup(r)
    ensures |r| <= |s|
    ensures |s| > 0 ==> |r| > 0 && r[0] == s[0]
    decreases |s|
  {
    if |s| == 0 then []
    else
      var tail := Unique(Filter(s[1..], x => x != s[0]));
      assert s[0] !in tail;
      [s[0]] + tail
  }

  /** `unique()` lists the values in the order of their first occurrence. */
  lemma {:induction false} UniqueInOrder<T(!new)>(s: seq<T>)
    ensures forall i, j :: 0 <= i < j < |Unique(s)| ==> FirstIndex(s, Unique(s)[i]) < FirstIndex(s, Unique(s)[j])
    decreases |s|
  {
    if |s| > 0 {
      var p := x => x != s[0];
      var rest := Filter(s[1..], p);
      var tail := Unique(rest);
      var u := Unique(s);
      UniqueInOrder(rest);
      assert u == [s[0]] + tail;
      forall i, j | 0 <= i < j < |u| ensures FirstIndex(s, u[i]) < FirstIndex(s, u[j]) {
        var y := u[j];
        assert y == tail[j - 1];
        LaterFirstIndex(s, y);
        if i > 0 {
          var x := u[i];
          assert x == tail[i - 1];
          LaterFirstIndex(s, x);
          FilterKeepsFirstOrder(s[1..], p, x, y);
        }
      }
    }
  }

  /** A value other than the head first occurs one place later in `s` than
      in its tail. */
  lemma LaterFirstIndex<T(!new)>(s: seq<T>, y: T)
    requires |s| > 0 && y in Filter(s[1..], x => x != s[0])
    ensures y in s[1..] && y != s[0] && FirstIndex(s, y) == FirstIndex(s[1..], y) + 1
  {
  }

  /** On a sequence without repeats `unique()` changes nothing. */
  lemma {:induction false} UniqueOfDistinct<T(!new)>(s: seq<T>)
    requires NoDup(s)
    ensures Unique(s) == s
  {
    if |s| > 0 {
      var p := x => x != s[0];
      assert Filter(s[1..], p) == s[1..] by {
        FilterCount(s[1..], p);
        FilterAll(s[1..], p);
      }
      assert NoDup(s[1..]);
      UniqueOfDistinct(s[1..]);
    }
  }

  /** Selecting by a predicate every element satisfies keeps everything. */
  lemma {:induction false} FilterAll<T(!new)>(s: seq<T>, p: T -> bool)
    requires forall i :: 0 <= i < |s| ==> p(s[i])
    ensures Filter(s, p) == s
  {
    if |s| > 0 {
      FilterAll(s[1..], p);
    }
  }

  /** `unique()` is idempotent. */
  lemma UniqueIdempotent<T(!new)>(s: seq<T>)
    ensures Unique(Unique(s)) == Unique(s)
  {
    UniqueOfDistinct(Unique(s));
  }

  /** The second distinct value is the first element that differs from the
      first one. */
  lemma {:induction false} UniqueSecond<T(!new)>(s: seq<T>, k: nat)
    requires k < |s| && s[k] != s[0]
    requires forall j :: 0 < j < k ==> s[j] == s[0]
    ensures |Unique(s)| >= 2 && Unique(s)[1] == s[k]
  {
    var rest := Filter(s[1..], x => x != s[0]);
    FilterFirst(s[1..], x => x != s[0], k - 1);
    assert Unique(s) == [s[0]] + Unique(rest);
  }

  /** When the first `k` elements fail `p` and element `k` satisfies it, the
      selection starts with element `k`. */
  lemma {:induction false} FilterFirst<T(!new)>(s: seq<T>, p: T -> bool, k: nat)
    requires k < |s| && p(s[k])
    requires forall j :: 0 <= j < k ==> !p(s[j])
    ensures |Filter(s, p)| > 0 && Filter(s, p)[0] == s[k]
  {
    if k > 0 {
      FilterFirst(s[1..], p, k - 1);
    }
  }

  /** A sequence has at least two distinct values exactly when its unique
      values number at least two. */
  lemma UniqueAtLeastTwo<T(!new)>(s: seq<T>)
    ensures |Unique(s)| >= 2 <==> exists i, j :: 0 <= i < j < |s| && s[i] != s[j]
  {
    var u := Unique(s);
    if |u| >= 2 {
      assert u[0] in s && u[1] in s;
      var i :| 0 <= i < |s| && s[i] == u[0];
      var j :| 0 <= j < |s| && s[j] == u[1];
      if i < j {
        assert s[i] != s[j];
      } else {
        assert s[j] != s[i];
      }
    }
    if exists i, j :: 0 <= i < j < |s| && s[i] != s[j] {
      var i, j :| 0 <= i < j < |s| && s[i] != s[j];
      assert s[i] in u && s[j] in u;
      var a :| 0 <= a < |u| && u[a] == s[i];
      var b :| 0 <= b < |u| && u[b] == s[j];
      assert a != b;
    }
  }
}

=== FILE: session.dfy ===
/** The tracker's session record (tracker/tracker/src/main/app/session.ts):
    the metadata, user, session id, timestamp and project of the current
    recording, and the callbacks told about every change.

    A callback is modelled by its identity; calling the callbacks becomes
    the sequence of deliveries an operation makes, in the order the
    callbacks were attached. */
module SessionState {
  import opened Wrappers

  type CallbackId = nat

  /** `string | null`. */
  datatype UserId = NullUser | User(id: string)

  /** The session id: `undefined` until one is given, and `null` when
      `update` is handed a `null` one, which it stores like any other value
      that is not `undefined`. */
  datatype SessionId = NoSessionId | NullSessionId | SessionIdOf(id: string)

  /** The one key that assigning through `this.metadata[k] = v` never
      creates: with a string value, the assignment goes to the inherited
      `__proto__` setter, which ignores it. */
  const ProtoKey: string := "__proto__"

  /** The private fields of the class. An `undefined` project is `None`. */
  datatype Session = Session(
    metadata: map<string, string>,
    userID: UserId,
    sessionID: SessionId,
    callbacks: seq<CallbackId>,
    timestamp: int,
    projectID: Option<string>)

  /** `SessionInfo`, the record `getInfo` returns. */
  datatype SessionInfo = SessionInfo(
    sessionID: SessionId,
    metadata: map<string, string>,
    userID: UserId,
    timestamp: int,
    projectID: Option<string>)

  /** `Partial<SessionInfo>`: `None` (and `NoSessionId`) is a missing or
      `undefined` key. The user key and the session id key may also be
      present and `null`. */
  datatype Patch = Patch(
    sessionID: SessionId,
    metadata: Option<map<string, string>>,
    userID: Option<UserId>,
    timestamp: Option<int>,
    projectID: Option<string>)

  /** One call of one update callback. */
  datatype Delivery = Delivery(callback: CallbackId, info: Patch)

  /** The state of a freshly constructed `Session`. */
  function New(): (s: Session)
    ensures s.metadata == map[] && s.userID == NullUser && s.sessionID == NoSessionId
    ensures s.callbacks == [] && s.timestamp == 0 && s.projectID == None
  {
    Session(map[], NullUser, NoSessionId, [], 0, None)
  }

  /** `attachUpdateCallback`: the callback joins the end of the list. */
  function Attach(s: Session, cb: CallbackId): (r: Session)
    ensures |r.callbacks| == |s.callbacks| + 1 && r.callbacks[..|s.callbacks|] == s.callbacks
    ensures r.callbacks[|s.callbacks|] == cb
    ensures r == s.(callbacks := r.callbacks)
  {
    s.(callbacks := s.callbacks + [cb])
  }

  /** What `handleUpdate` passes on: the patch with a `null` user key and
      a `null` session id key deleted (`== null` also holds of `undefined`,
      but deleting an `undefined` key changes nothing a callback can see). */
  function Payload(p: Patch): (r: Patch)
    ensures r.userID != Some(NullUser)
    ensures r.userID.Some? ==> r.userID == p.userID
    ensures p.userID.Some? && p.userID != Some(NullUser) ==> r.userID == p.userID
    ensures r.sessionID != NullSessionId
    ensures r.sessionID.SessionIdOf? <==> p.sessionID.SessionIdOf?
    ensures r.sessionID.SessionIdOf? ==> r.sessionID == p.sessionID
    ensures r == p.(userID := r.userID, sessionID := r.sessionID)
  {
    var p1 := if p.userID == Some(NullUser) then p.(userID := None) else p;
    if p1.sessionID == NullSessionId then p1.(sessionID := NoSessionId) else p1
  }

  /** `handleUpdate`: every callback, in attach order, receives the
      payload. */
  function Notify(callbacks: seq<CallbackId>, p: Patch): (r: seq<Delivery>)
    ensures |r| == |callbacks|
    ensures forall i :: 0 <= i < |r| ==> r[i] == Delivery(callbacks[i], Payload(p))
  {
    seq(|callbacks|, i requires 0 <= i < |callbacks| => Delivery(callbacks[i], Payload(p)))
  }

  /** `m` overwritten key by key with `patch`, as `Object.entries(...)
      .forEach(([k, v]) => this.metadata[k] = v)` does; the `__proto__`
      entry of a patch is lost on the way. */
  function Merge(m: map<string, string>, patch: map<string, string>): (r: map<string, string>)
    ensures forall k :: k in r <==> k in m || (k in patch && k != ProtoKey)
    ensures forall k :: k in patch && k != ProtoKey ==> r[k] == patch[k]
    ensures forall k :: k in m && (k !in patch || k == ProtoKey) ==> r[k] == m[k]
  {
    m + map k | k in patch && k != ProtoKey :: patch[k]
  }

  /** `update`: every key the patch gives is written, a `null` user
      included; the other fields keep their values; then the callbacks are
      notified. */
  function Update(s: Session, p: Patch): (r: (Session, seq<Delivery>))
    ensures p.userID.Some? ==> r.0.userID == p.userID.value
    ensures p.userID.None? ==> r.0.userID == s.userID
    ensures p.sessionID != NoSessionId ==> r.0.sessionID == p.sessionID
    ensures p.sessionID == NoSessionId ==> r.0.sessionID == s.sessionID
    ensures p.timestamp.Some? ==> r.0.timestamp == p.timestamp.value
    ensures p.timestamp.None? ==> r.0.timestamp == s.timestamp
    ensures p.projectID.Some? ==> r.0.projectID == p.projectID
    ensures p.projectID.None? ==> r.0.projectID == s.projectID
    ensures p.metadata.None? ==> r.0.metadata == s.metadata
    ensures p.metadata.Some? ==> r.0.metadata == Merge(s.metadata, p.metadata.value)
    ensures r.0.callbacks == s.callbacks
    ensures r.1 == Notify(s.callbacks, p)
  {
    var s1 := if p.userID.Some? then s.(userID := p.userID.value) else s;
    var s2 := if p.metadata.Some? then s1.(metadata := Merge(s1.metadata, p.metadata.value)) else s1;
    var s3 := if p.sessionID != NoSessionId then s2.(sessionID := p.sessionID) else s2;
    var s4 := if p.timestamp.Some? then s3.(timestamp := p.timestamp.value) else s3;
    var s5 := if p.projectID.Some? then s4.(projectID := p.projectID) else s4;
    (s5, Notify(s.callbacks, p))
  }

  /** The patch that gives only `key: value` of metadata. */
  function MetadataPatch(key: string, value: string): Patch {
    Patch(NoSessionId, Some(map[key := value]), None, None, None)
  }

  /** The patch that gives only a user. */
  function UserPatch(userID: string): Patch {
    Patch(NoSessionId, None, Some(User(userID)), None, None)
  }

  /** `setMetadata`: one key written, unless it is `__proto__`; the
      callbacks told about that key either way. */
  function SetMetadata(s: Session, key: string, value: string): (r: (Session, seq<Delivery>))
    ensures r.0 == s.(metadata := r.0.metadata)
    ensures key != ProtoKey ==> key in r.0.metadata && r.0.metadata[key] == value
    ensures key == ProtoKey ==> r.0.metadata == s.metadata
    ensures forall k :: k != key ==> (k in r.0.metadata <==> k in s.metadata)
    ensures forall k :: k != key && k in s.metadata ==> r.0.metadata[k] == s.metadata[k]
    ensures |r.1| == |s.callbacks|
    ensures forall i :: 0 <= i < |r.1| ==> r.1[i].callback == s.callbacks[i] && r.1[i].info == MetadataPatch(key, value)
  {
    var metadata := if key == ProtoKey then s.metadata else s.metadata[key := value];
    (s.(metadata := metadata), Notify(s.callbacks, MetadataPatch(key, value)))
  }

  /** `setUserID`: the user written, the callbacks told about it. */
  function SetUserID(s: Session, userID: string): (r: (Session, seq<Delivery>))
    ensures r.0 == s.(userID := User(userID))
    ensures |r.1| == |s.callbacks|
    ensures forall i :: 0 <= i < |r.1| ==> r.1[i].callback == s.callbacks[i] && r.1[i].info == UserPatch(userID)
  {
    (s.(userID := User(userID)), Notify(s.callbacks, UserPatch(userID)))
  }

  /** `getInfo`. */
  function GetInfo(s: Session): (r: SessionInfo)
    ensures r.sessionID == s.sessionID && r.metadata == s.metadata && r.userID == s.userID
    ensures r.timestamp == s.timestamp && r.projectID == s.projectID
  {
    SessionInfo(s.sessionID, s.metadata, s.userID, s.timestamp, s.projectID)
  }

  /** `reset`: metadata, user, session id and timestamp go back to their
      initial values; the project and the callbacks stay; no callback is
      told. The second component is the storage key the call removes. */
  function Reset(s: Session, sessionTokenKey: string): (r: (Session, string))
    ensures r.0.metadata == New().metadata && r.0.userID == New().userID
    ensures r.0.sessionID == New().sessionID && r.0.timestamp == New().timestamp
    ensures r.0.projectID == s.projectID && r.0.callbacks == s.callbacks
    ensures r.1 == sessionTokenKey
  {
    (Session(map[], NullUser, NoSessionId, s.callbacks, 0, s.projectID), sessionTokenKey)
  }

  /** `setMetadata(k, v)` is `update({metadata: {k: v}})`, in the state it
      leaves and in what it tells the callbacks. */
  lemma SetMetadataIsUpdate(s: Session, key: string, value: string)
    ensures SetMetadata(s, key, value) == Update(s, MetadataPatch(key, value))
  {
    var m := Merge(s.metadata, map[key := value]);
    if key == ProtoKey {
      assert m == s.metadata;
    } else {
      assert m == s.metadata[key := value];
    }
  }

  /** `setUserID(id)` is `update({userID: id})`. */
  lemma SetUserIDIsUpdate(s: Session, userID: string)
    ensures SetUserID(s, userID) == Update(s, UserPatch(userID))
  {
  }

  /** No callback ever receives a `null` user or a `null` session id, and
      every callback receives the other keys of the patch unchanged. */
  lemma {:induction false} DeliveriesNeverCarryNull(s: Session, p: Patch)
    ensures forall d :: d in Update(s, p).1 ==> d.info.userID != Some(NullUser) && d.info.sessionID != NullSessionId
    ensures forall d :: d in Update(s, p).1 ==>
              d.info.metadata == p.metadata && d.info.timestamp == p.timestamp && d.info.projectID == p.projectID
              && (p.sessionID.SessionIdOf? ==> d.info.sessionID == p.sessionID)
  {
    var ds := Update(s, p).1;
    forall d | d in ds
      ensures d.info == Payload(p)
    {
      var i :| 0 <= i < |ds| && ds[i] == d;
    }
  }

  /** `update({userID: null})` clears the user, but the callbacks receive
      an empty patch: they are not told that the user is gone. */
  lemma NullUserClearsSilently(s: Session)
    ensures Update(s, Patch(NoSessionId, None, Some(NullUser), None, None)).0 == s.(userID := NullUser)
    ensures forall d :: d in Update(s, Patch(NoSessionId, None, Some(NullUser), None, None)).1 ==>
              d.info == Patch(NoSessionId, None, None, None, None)
  {
    DeliveriesNeverCarryNull(s, Patch(NoSessionId, None, Some(NullUser), None, None));
  }

  /** `update({sessionID: null})` stores `null` as the session id, and the
      callbacks receive an empty patch. */
  lemma NullSessionIdStoredSilently(s: Session)
    ensures Update(s, Patch(NullSessionId, None, None, None, None)).0 == s.(sessionID := NullSessionId)
    ensures forall d :: d in Update(s, Patch(NullSessionId, None, None, None, None)).1 ==>
              d.info == Patch(NoSessionId, None, None, None, None)
  {
    DeliveriesNeverCarryNull(s, Patch(NullSessionId, None, None, None, None));
  }

  /** Applying the same patch twice leaves the state of applying it once. */
  lemma UpdateIdempotent(s: Session, p: Patch)
    ensures Update(Update(s, p).0, p).0 == Update(s, p).0
  {
    if p.metadata.Some? {
      var m := Merge(s.metadata, p.metadata.value);
      assert Merge(m, p.metadata.value) == m;
    }
  }

  /** The patch that `q` after `p` amounts to: `q`'s keys win, metadata
      merged. */
  function Then(p: Patch, q: Patch): (r: Patch)
    ensures q.userID.Some? ==> r.userID == q.userID
    ensures q.userID.None? ==> r.userID == p.userID
    ensures p.metadata.None? || q.metadata.None? ==> r.metadata == (if q.metadata.Some? then q.metadata else p.metadata)
  {
    Patch(
      if q.sessionID != NoSessionId then q.sessionID else p.sessionID,
      if p.metadata.Some? && q.metadata.Some? then Some(Merge(p.metadata.value, q.metadata.value))
      else if q.metadata.Some? then q.metadata else p.metadata,
      if q.userID.Some? then q.userID else p.userID,
      if q.timestamp.Some? then q.timestamp else p.timestamp,
      if q.projectID.Some? then q.projectID else p.projectID)
  }

  /** Two updates in a row leave the state that the combined patch leaves. */
  lemma UpdateCompose(s: Session, p: Patch, q: Patch)
    ensures Update(Update(s, p).0, q).0 == Update(s, Then(p, q)).0
  {
    var a := Update(Update(s, p).0, q).0;
    var b := Update(s, Then(p, q)).0;
    if p.metadata.Some? && q.metadata.Some? {
      MergeAssociative(s.metadata, p.metadata.value, q.metadata.value);
    }
    assert a.metadata == b.metadata;
    assert a.callbacks == b.callbacks;
  }

  lemma MergeAssociative(a: map<string, string>, b: map<string, string>, c: map<string, string>)
    ensures Merge(Merge(a, b), c) == Merge(a, Merge(b, c))
  {
    var ab, bc := Merge(a, b), Merge(b, c);
    var l, r := Merge(ab, c), Merge(a, bc);
    forall k ensures k in l <==> k in r {
      assert k in l <==> k in ab || (k in c && k != ProtoKey);
      assert k in r <==> k in a || (k in bc && k != ProtoKey);
    }
    forall k | k in l ensures l[k] == r[k] {
      if k in c && k != ProtoKey {
        assert l[k] == c[k] && bc[k] == c[k];
      } else if k in b && k != ProtoKey {
        assert l[k] == ab[k] && ab[k] == b[k] && bc[k] == b[k];
      } else {
        assert l[k] == ab[k] && ab[k] == a[k];
      }
    }
    assert l == r;
  }

  /** The patch that writes back everything `getInfo` reported. */
  function InfoPatch(info: SessionInfo): Patch {
    Patch(info.sessionID, Some(info.metadata), Some(info.userID), Some(info.timestamp), info.projectID)
  }

  /** Resetting and then updating with what `getInfo` reported before the
      reset gives back the session as it was, for every session the class
      can reach. */
  lemma ResetThenRestore(s: Session, sessionTokenKey: string)
    requires Reachable(s)
    ensures Update(Reset(s, sessionTokenKey).0, InfoPatch(GetInfo(s))).0 == s
  {
    assert Merge(map[], s.metadata) == s.metadata;
  }

  /** What holds of every state the class can reach: no metadata key is
      `__proto__`. */
  predicate Reachable(s: Session) {
    ProtoKey !in s.metadata
  }

  /** A new session is reachable, and every operation keeps it so. */
  lemma OperationsKeepReachable(s: Session, cb: CallbackId, p: Patch, key: string, value: string,
                                userID: string, sessionTokenKey: string)
    requires Reachable(s)
    ensures Reachable(New())
    ensures Reachable(Attach(s, cb))
    ensures Reachable(Update(s, p).0)
    ensures Reachable(SetMetadata(s, key, value).0)
    ensures Reachable(SetUserID(s, userID).0)
    ensures Reachable(Reset(s, sessionTokenKey).0)
  {
  }

  /** Resetting twice is resetting once, and a reset session looks, to
      `getInfo`, like a new one with the same project. */
  lemma ResetIdempotent(s: Session, sessionTokenKey: string)
    ensures Reset(Reset(s, sessionTokenKey).0, sessionTokenKey) == Reset(s, sessionTokenKey)
    ensures GetInfo(Reset(s, sessionTokenKey).0) == GetInfo(New()).(projectID := s.projectID)
  {
  }

  /** A callback attached after an update is not told about it, and each
      attached callback is told exactly once per update. */
  lemma {:induction false} AttachOrder(s: Session, cb: CallbackId, p: Patch)
    ensures Update(Attach(s, cb), p).1 == Update(s, p).1 + [Delivery(cb, Payload(p))]
  {
    var a := Update(Attach(s, cb), p).1;
    var b := Update(s, p).1 + [Delivery(cb, Payload(p))];
    assert |a| == |b|;
    forall i | 0 <= i < |a| ensures a[i] == b[i] {
      if i < |s.callbacks| {
        assert Attach(s, cb).callbacks[i] == s.callbacks[i];
      }
    }
  }
}

=== FILE: stats.dfy ===
/** Column statistics as pandas computes them. `Series.mean()` skips NaN and
    yields NaN for a column with no numbers. Arithmetic on NaN yields NaN.
    NaN is `None` throughout. */
module Stats {
  import opened Wrappers

  /** The numbers of a column, NaN dropped, order kept. */
  function Numbers(xs: seq<Option<real>>): (r: seq<real>)
    ensures |r| <= |xs|
    ensures (forall i :: 0 <= i < |xs| ==> xs[i].Some?) ==> |r| == |xs|
  {
    if |xs| == 0 then []
    else if xs[0].Some? then [xs[0].value] + Numbers(xs[1..])
    else Numbers(xs[1..])
  }

  function Sum(xs: seq<real>): real {
    if |xs| == 0 then 0.0 else xs[0] + Sum(xs[1..])
  }

  /** `Series.mean()`: the average of the numbers, NaN when there are none. */
  function Mean(xs: seq<Option<real>>): (r: Option<real>)
    ensures r.Some? <==> exists i :: 0 <= i < |xs| && xs[i].Some?
  {
    var ns := Numbers(xs);
    NumbersEmpty(xs);
    if |ns| == 0 then None else Some(Sum(ns) / (|ns| as real))
  }

  lemma {:induction false} NumbersEmpty(xs: seq<Option<real>>)
    ensures |Numbers(xs)| == 0 <==> forall i :: 0 <= i < |xs| ==> xs[i].None?
  {
    if |xs| > 0 {
      NumbersEmpty(xs[1..]);
      assert forall i :: 1 <= i < |xs| ==> xs[i] == xs[1..][i - 1];
    }
  }

  /** Every number of the column lies in `[lo, hi]`. */
  predicate AllWithin(xs: seq<Option<real>>, lo: real, hi: real) {
    forall i :: 0 <= i < |xs| && xs[i].Some? ==> lo <= xs[i].value <= hi
  }

  /** `n * x` as repeated addition, which keeps the bounds below linear. */
  function Times(n: nat, x: real): real {
    if n == 0 then 0.0 else x + Times(n - 1, x)
  }

  lemma {:induction false} TimesIsProduct(n: nat, x: real)
    ensures Times(n, x) == (n as real) * x
  {
    if n > 0 {
      TimesIsProduct(n - 1, x);
      assert (n as real) * x == ((n - 1) as real) * x + x;
    }
  }

  lemma {:induction false} SumWithin(xs: seq<Option<real>>, lo: real, hi: real)
    requires AllWithin(xs, lo, hi)
    ensures Times(|Numbers(xs)|, lo) <= Sum(Numbers(xs)) <= Times(|Numbers(xs)|, hi)
  {
    if |xs| > 0 {
      assert AllWithin(xs[1..], lo, hi) by {
        assert forall i :: 1 <= i < |xs| ==> xs[i] == xs[1..][i - 1];
      }
      SumWithin(xs[1..], lo, hi);
      var rest := Numbers(xs[1..]);
      if xs[0].Some? {
        assert Numbers(xs) == [xs[0].value] + rest;
        assert Sum(Numbers(xs)) == xs[0].value + Sum(rest);
      } else {
        assert Numbers(xs) == rest;
      }
    }
  }

  /** The mean lies between the smallest and the largest number. */
  lemma MeanWithin(xs: seq<Option<real>>, lo: real, hi: real)
    requires AllWithin(xs, lo, hi)
    requires Mean(xs).Some?
    ensures lo <= Mean(xs).value <= hi
  {
    var ns := Numbers(xs);
    SumWithin(xs, lo, hi);
    assert |ns| > 0;
    AverageWithin(ns, lo, hi);
  }

  lemma AverageWithin(ns: seq<real>, lo: real, hi: real)
    requires |ns| > 0
    requires Times(|ns|, lo) <= Sum(ns) <= Times(|ns|, hi)
    ensures lo <= Sum(ns) / (|ns| as real) <= hi
  {
    TimesIsProduct(|ns|, lo);
    TimesIsProduct(|ns|, hi);
    DivBounds(|ns| as real, Sum(ns), lo, hi);
  }

  lemma DivBounds(n: real, total: real, lo: real, hi: real)
    requires n > 0.0 && n * lo <= total <= n * hi
    ensures lo <= total / n <= hi
  {
  }

  /** The mean of a column whose every entry is the number `v` is `v`. */
  lemma {:induction false} MeanOfConstant(xs: seq<Option<real>>, v: real)
    requires |xs| > 0
    requires forall i :: 0 <= i < |xs| ==> xs[i] == Some(v)
    ensures Mean(xs) == Some(v)
  {
    assert AllWithin(xs, v, v);
    MeanWithin(xs, v, v);
  }

  /** `a - b` on two possibly-NaN numbers. */
  function Diff(a: Option<real>, b: Option<real>): (r: Option<real>)
    ensures r.Some? <==> a.Some? && b.Some?
    ensures r.Some? ==> b.value + r.value == a.value
  {
    if a.Some? && b.Some? then Some(a.value - b.value) else None
  }

  /** `part / total` on integer sums. In context `0 <= part <= total`, so a
      zero total means `0 / 0`, which numpy turns into NaN. */
  function Share(part: int, total: int): (r: Option<real>)
    ensures r.Some? <==> total != 0
    ensures r.Some? ==> r.value * (total as real) == part as real
  {
    if total == 0 then None else Some((part as real) / (total as real))
  }

  /** `(current - previous) / previous`, undefined when either mean is NaN or
      the previous mean is zero. */
  function RelativeChange(current: Option<real>, previous: Option<real>): (r: Option<real>)
    ensures r.Some? <==> current.Some? && previous.Some? && previous.value != 0.0
    ensures r.Some? ==> previous.value * (1.0 + r.value) == current.value
  {
    if current.Some? && previous.Some? && previous.value != 0.0 then
      Some((current.value - previous.value) / previous.value)
    else None
  }
}

=== FILE: timestep.dfy ===
/** The time-step resolver of the period comparator
    (`__handle_timestep` in ee/api/chalicelib/core/sessions_insights.py).

    The function first asserts that its argument is a string, and later, on
    the branch for every other string, asserts that the argument is an
    integer. The two asserts cannot both pass, so the integer-minutes branch
    never returns: only `hour`, `day` and `week` resolve. */
module TimeStep {
  import opened Wrappers

  /** The Python value passed as `time_step`. Only its type and, for a
      string, its text matter to the resolver. */
  datatype StepArg = Text(s: string) | Integer(n: int) | OtherType

  /** The store-side bucketing expression the resolver selects. The template
      it stands for has one placeholder for the bucketed column. */
  datatype Bucketing = StartOfHour | StartOfDay | StartOfWeek

  /** The two asserts of the resolver, by their messages. */
  datatype StepError =
    | NotAString    // `type(time_step) == str` fails
    | NotAnInteger  // `type(time_step) == int` fails on the fallback branch

  /** Default `time_step` of every query function. */
  const DefaultStep: StepArg := Integer(3600)

  /** The token that selects a bucketing. */
  function Token(b: Bucketing): string {
    match b
    case StartOfHour => "hour"
    case StartOfDay => "day"
    case StartOfWeek => "week"
  }

  /** Width of one bucket in seconds. */
  function Width(b: Bucketing): (w: nat)
    ensures w > 0 && w % 3600 == 0
  {
    match b
    case StartOfHour => 3600
    case StartOfDay => 24 * 3600
    case StartOfWeek => 7 * 24 * 3600
  }

  /** `__handle_timestep`: the bucketing and its width, or the assert that
      fails. */
  function Resolve(arg: StepArg): (r: Result<(Bucketing, nat), StepError>)
    ensures r.Success? ==> r.value.1 == Width(r.value.0) && arg == Text(Token(r.value.0))
    ensures !arg.Text? ==> r == Failure(NotAString)
    ensures arg.Text? && r.Failure? ==> r.error == NotAnInteger
  {
    if !arg.Text? then Failure(NotAString)
    else if arg.s == "hour" then Success((StartOfHour, 3600))
    else if arg.s == "day" then Success((StartOfDay, 24 * 3600))
    else if arg.s == "week" then Success((StartOfWeek, 7 * 24 * 3600))
    else Failure(NotAnInteger)
  }

  /** Resolving the token of a bucketing gives back that bucketing and its
      width, so `Resolve` and `Token` are inverse on the accepted tokens. */
  lemma ResolveToken(b: Bucketing)
    ensures Resolve(Text(Token(b))) == Success((b, Width(b)))
  {
  }

  /** The resolver succeeds exactly on the three named tokens. */
  lemma ResolveSucceedsIff(arg: StepArg)
    ensures Resolve(arg).Success? <==> arg in {Text("hour"), Text("day"), Text("week")}
  {
  }

  /** The widths are one hour, one day and one week. */
  lemma Widths()
    ensures Resolve(Text("hour")) == Success((StartOfHour, 3600))
    ensures Resolve(Text("day")) == Success((StartOfDay, 86400))
    ensures Resolve(Text("week")) == Success((StartOfWeek, 604800))
  {
  }

  /** No integer resolves, not even the default `3600`, so calling a query
      function without `time_step` always fails. */
  lemma IntegersNeverResolve(n: int)
    ensures Resolve(Integer(n)) == Failure(NotAString)
    ensures Resolve(DefaultStep).Failure?
  {
  }
}

=== FILE: wrappers.dfy ===
/** Failure-compatible wrappers used throughout the model: `Option` for a value
    that may be absent (a NULL, a NaN, an undefined field) and `Result` for an
    operation that raises an exception. */
module Wrappers {

  datatype Option<+T> = None | Some(value: T) {
    predicate IsFailure() {
      None?
    }

    function PropagateFailure<U>(): Option<U>
      requires None?
    {
      None
    }

    function Extract(): T
      requires Some?
    {
      value
    }
  }

  datatype Result<+R, +E> = Success(value: R) | Failure(error: E) {
    predicate IsFailure() {
      Failure?
    }

    function PropagateFailure<U>(): Result<U, E>
      requires Failure?
    {
      Failure(error)
    }

    function Extract(): R
      requires Success?
    {
      value
    }
  }
}
